=== FILE: README.md ===
# django-nonrel installer: a Dafny model

This project models the decision logic of `dj_nonrel_install.py`, the
one-shot installer of django-nonrel (Python 2), and proves what it promises.
The installer works like this:

- It reads one command-line token. The token selects a branch or `--clean`.
- It creates the install root `django-nonrel` and enters it.
- It looks up an eight-entry manifest of `(url, dir)` pairs for the branch.
- It then runs four batches over that manifest:
  - Download every URL to `<field 4>.tar.gz`.
  - Extract and delete every archive.
  - Rename each extracted directory, the first one whose name contains `-<key>-`, to `<key>`.
  - Link each library into `django-testapp`: by a relative symbolic link, or by moving it there with `shutil.move` when no link can be made.

The model is functional. The filesystem is an immutable map from paths
(sequences of names) to nodes (regular file, directory, symbolic link). Every
step returns the new filesystem together with a `Result` whose failure is either a
reported error, one case per key of the installer's error table (exit status
128), or an uncaught Python exception (exit status 1). Things outside the
program are parameters of the run:

- what each URL delivers;
- whether symbolic links can be made;
- the order of directory listings;
- the members of each archive.

Modules, in dependency order:

- `Wrappers`: `Option` and `Result`.
- `Strings`: split and join on `/`, Python's `s[:-n]`, substring search.
- `Errors`: the error table and exit statuses.
- `FileSys`: mkdir, rmtree, `os.rename`, `shutil.move`, and the well-formedness they keep.
- `Args`: the constructor's argument handling.
- `Archives`: the archive name, the download, the extraction.
- `Manifest`: `get_lib_urls`.
- `Resolver`: `move_dir`.
- `Linker`: `symlink`.
- `Install`: `create_install_dir`, `clean` and `main`.

## Model

| member | source | states |
|---|---|---|
| Strings.Split | dj_nonrel_install.py:135 | `str.split` on one character: at least one field, no field contains the separator, and joining the fields gives back the string |
| Strings.SplitJoin | dj_nonrel_install.py:135 | splitting the join of separator-free fields returns exactly those fields, so field 4 of a URL built from fields is known |
| Strings.DropLast | dj_nonrel_install.py:351 | Python's `s[:-n]`: a prefix of `s`, exactly `n` characters shorter when `1 <= n <= len(s)`, and empty when `n` is 0 or exceeds the length |
| Strings.DropLastAppended | dj_nonrel_install.py:351 | `(x + suffix)[:-len(suffix)]` is `x`, and `x + suffix` ends with the suffix |
| Errors.ReportNamesSubject | dj_nonrel_install.py:45-74 | the line written by `_exit_error` starts with `Error <code>`, carries the error's subject verbatim right after the message head, and ends with a blank line |
| Errors.ExitStatus | dj_nonrel_install.py:75-80 | a run exits 0 exactly when it succeeded, and every reported error exits 128 |
| FileSys.MkDir | dj_nonrel_install.py:123 | `os.mkdir` succeeds exactly when nothing is at the path and its parent is a directory; it then adds one directory and changes nothing else |
| FileSys.RemoveTree | dj_nonrel_install.py:239 | deleting a tree keeps exactly the entries not below the root, with their contents |
| FileSys.RemoveTreeWellFormed | dj_nonrel_install.py:239 | deleting a tree leaves every remaining entry inside a directory |
| FileSys.Move | dj_nonrel_install.py:197 | `os.rename` to a free place succeeds exactly when the source exists, nothing is at or below the destination, the destination's parent is a directory and the destination is not inside the source |
| FileSys.MoveEffect | dj_nonrel_install.py:197 | after a rename the destination holds the source's node, the old subtree is gone and reappears below the destination, and every other entry is unchanged |
| FileSys.MovePlaced | dj_nonrel_install.py:197 | after a rename the destination holds the source's node and the source's name is gone |
| FileSys.MoveWellFormed | dj_nonrel_install.py:197 | renaming keeps every entry inside a directory |
| FileSys.MoveBack | dj_nonrel_install.py:197 | renaming back undoes a rename exactly |
| FileSys.ShutilMove | dj_nonrel_install.py:230 | `shutil.move` succeeds only if the source exists; onto a free destination it is exactly `os.rename`; onto a directory it succeeds exactly when the source can be renamed into it under its own last name |
| FileSys.ShutilMovePlaced | dj_nonrel_install.py:230 | after `shutil.move` the source's node sits at its target (inside a destination directory, under its own name), the source path is gone, a receiving directory stays, and every entry outside the two subtrees is unchanged |
| FileSys.ShutilMoveWellFormed | dj_nonrel_install.py:230 | `shutil.move` keeps every entry inside a directory, including when a file replaces a file |
| Args.Select | dj_nonrel_install.py:95-119 | no token means `--master`; `--clean` is recognised first; the six branch tokens, aliases included, are kept verbatim; any other token is the `unknownarg` error carrying it |
| Archives.ArchiveName | dj_nonrel_install.py:135 | the file name exists exactly when the URL has a field 4; it ends in `.tar.gz`, has no separator, drops back to field 4 and gets the `gz` flag |
| Archives.Download | dj_nonrel_install.py:130-167 | a download succeeds exactly when the URL has a field 4, the file can be opened and the URL delivers its whole body; the file `<field 4>.tar.gz` then holds that body and nothing else changes |
| Archives.DownloadFailure | dj_nonrel_install.py:135-162 | a short URL raises before anything is touched; an unopenable file gives `fileopen` with nothing changed; any later failure leaves the file behind, truncated; every reported failure is `fileopen`, `urlopen`, `urlread` or `filewrite`, naming the file or the URL |
| Archives.Extract | dj_nonrel_install.py:169-182 | extraction succeeds exactly when the file is an archive of the chosen compression and every member can be written over what is on disk (no file member over a directory, no member below a regular file); otherwise it fails with `untar` naming the file, and nothing changes |
| Archives.ExtractClashFails | dj_nonrel_install.py:175-180 | a regular file member where a directory exists, or a member below an existing regular file, makes `extractall` raise, reported as `untar` |
| Archives.ExtractEffect | dj_nonrel_install.py:175-181 | after a successful extraction the archive is gone, every other member sits below the working directory (a directory member leaves an existing entry as it is), every entry no member lands on is kept, every directory stays a directory, and nothing but members is added |
| Archives.ExtractWellFormed | dj_nonrel_install.py:175-181 | extracting an archive whose members sit inside its own directory members keeps every entry inside a directory |
| Manifest.LibUrls | dj_nonrel_install.py:243-313 | a list exists exactly for `--master`, `--dev13`, `--dev14` and `--dev15`; it has 8 entries, the bitbucket autoload entry first, and entry i's directory is `lib_dirs[i]` |
| Manifest.IntendedLibUrls | dj_nonrel_install.py:110 | the corrected table: the aliases `--dev` and `--develop` get the 1.3 development list, and every other token gets what `get_lib_urls` gives |
| Manifest.OnlyTestappDirEmpty | dj_nonrel_install.py:285-294 | only entry 4, the test application, has an empty directory |
| Manifest.RemoteFields | dj_nonrel_install.py:135 | a manifest URL splits into its seven fields and its archive is `<repository>.tar.gz` |
| Manifest.ReposDistinct | dj_nonrel_install.py:249-284 | no repository appears twice in a branch's list, autoload included |
| Manifest.BranchWellNamed | dj_nonrel_install.py:249-306 | every branch's URLs have separator-free fields and pairwise distinct repositories |
| Manifest.ManifestArchiveNames | dj_nonrel_install.py:135-138 | for every branch, entry i downloads to `<repository i>.tar.gz`, and no two entries share a file name |
| Resolver.FirstMatch | dj_nonrel_install.py:190-192 | the position found is the first listed name containing the infix, and there is none exactly when no name contains it |
| Resolver.MoveDir | dj_nonrel_install.py:184-202 | `notfound` is reported exactly when no listed name contains the infix; a match with the key already present gives `pathexists`; a failure changes nothing and is one of `notfound`, `pathexists`, `movedir` |
| Resolver.MoveDirMoves | dj_nonrel_install.py:193-200 | the rename succeeds exactly when a match is found, the key is free and the match can be moved there, and it then moves the first match |
| Resolver.NotFoundIffNoMatch | dj_nonrel_install.py:190-202 | with a true listing, `notfound` is reported exactly when no entry of the directory contains `-<key>-`, whether or not the key exists |
| Resolver.PathExistsIffTaken | dj_nonrel_install.py:192-194 | with a true listing, `pathexists` is reported exactly when some entry matches and the key already exists, and nothing is renamed |
| Resolver.MoveDirSuccess | dj_nonrel_install.py:196-200 | a successful rename takes the first match: it is gone, the key holds what it held, and everything outside the two subtrees is unchanged |
| Resolver.MoveDirNeverFailsToMove | dj_nonrel_install.py:190-200 | inside a directory of a well-formed tree, with a true listing, `movedir` is never reported: the rename succeeds exactly when some entry has the infix and the key is free |
| Resolver.MoveDirPlacesKey | dj_nonrel_install.py:193-198 | a successful rename creates the key, which was absent before |
| Resolver.MoveDirKeeps | dj_nonrel_install.py:190-198 | a successful rename leaves every entry whose name lacks the infix exactly as it was |
| Linker.LinkResolves | dj_nonrel_install.py:216-224 | the link is `ln_root/ln_name`, or `ln_root/target` for an empty name, and its content, read from the link's directory, leads to `target/ln_name`, or `target` |
| Linker.PlanNames | dj_nonrel_install.py:218-224 | the link sits directly in `ln_root` and is named like the directory it exposes (`ln_name`, or `target` when `ln_name` is empty); its content climbs one level and then names that directory; prefix, suffix and length together pin the link to exactly `ln_root/name` and the content to exactly `../source` |
| Linker.Symlink | dj_nonrel_install.py:204-232 | nothing happens for the test application itself; a link is made when possible, else the directory is moved with `shutil.move`; only a failed move fails, with `movedir` naming both paths and nothing changed |
| Linker.LinkedLibraryReachable | dj_nonrel_install.py:222-232 | after success the link's place holds a link that leads back to the untouched library, or the library was moved, with its old name gone, to the link's place or, when a directory already stood there, into it under its own name |
| Linker.SymlinkWellFormed | dj_nonrel_install.py:204-232 | linking keeps every entry inside a directory |
| Install.CreateInstallDir | dj_nonrel_install.py:121-127 | creating the root succeeds exactly when nothing is there and the parent is a directory, adds only the root, and otherwise fails with `mkdir` and changes nothing |
| Install.Clean | dj_nonrel_install.py:234-241 | with errors ignored, a directory is deleted with all of its contents, and anything else at that name is left alone; cleaning never fails |
| Install.CleanIdempotent | dj_nonrel_install.py:239 | cleaning twice is cleaning once |
| Install.CleanWellFormed | dj_nonrel_install.py:239 | cleaning keeps every entry inside a directory |
| Install.CleanThenCreate | dj_nonrel_install.py:234-241 | after cleaning, creating the root succeeds unless a non-directory was in the way, in which case it fails with `mkdir` |
| Install.DownloadAll | dj_nonrel_install.py:343-346 | downloads complete in manifest order and the batch succeeds exactly when all of them completed |
| Install.DownloadAllNames | dj_nonrel_install.py:343-346 | a download batch that completes names file i after field 4 of URL i |
| Install.DownloadAllFailure | dj_nonrel_install.py:343-346 | a failed download batch stops at the first URL not completed: a URL without a field 4 crashes, and any other failure is `fileopen`, `urlopen`, `urlread` or `filewrite` for that URL |
| Install.Batch | dj_nonrel_install.py:347-357 | a batch logs its items in order, each once, as their steps complete, and it succeeds exactly when every step completed |
| Install.BatchFailure | dj_nonrel_install.py:347-357 | a failed batch ends with the failure of its step on the first item not logged, taken in the state the logged items' batch completed with, and leaves the state that step leaves |
| Install.ExtractAll | dj_nonrel_install.py:348-349 | extractions complete in file order, and the batch succeeds exactly when all of them completed |
| Install.ExtractAllFailure | dj_nonrel_install.py:348-349 | a failed extraction batch reports `untar` for the first file not extracted |
| Install.RenameAll | dj_nonrel_install.py:353-354 | renames complete in key order, and the batch succeeds exactly when all completed |
| Install.RenameAllFailure | dj_nonrel_install.py:353-354 | a failed rename batch reports `notfound` or `pathexists` for the key it stopped at, or `movedir` |
| Install.RenamedKeysStay | dj_nonrel_install.py:353-354 | while no name holds the infix of a key, names already in place and every key renamed by the batch are entries of the working directory when it stops |
| Install.RenamedKeysPresent | dj_nonrel_install.py:353-354 | when no key holds the infix of a key, every key the batch renamed is still an entry when it stops |
| Install.LinkAll | dj_nonrel_install.py:356-357 | link i pairs key i with directory i, in order, and the batch succeeds exactly when all of them completed |
| Install.LinkAllFailure | dj_nonrel_install.py:356-357 | only `movedir` can stop a link batch, naming the source and the link of the first entry not linked |
| Install.DownloadsAsPlanned | dj_nonrel_install.py:343-351 | the download log is a prefix of the URL list, and on success file i is `<field 4 of URL i>.tar.gz` and key i is that field |
| Install.StagesFollowPlan | dj_nonrel_install.py:343-357 | for `Stages`, the completed steps always form a prefix of "all downloads, all extractions, all renames, all links", entry by entry in manifest order, and the run succeeds exactly when all of them completed |
| Install.StagesFailure | dj_nonrel_install.py:343-357 | the batches fail only with their own errors (`fileopen`, `urlopen`, `urlread`, `filewrite`, `untar`, `notfound`, `pathexists`, `movedir`), and an uncaught exception means some URL has no field 4 |
| Install.ManifestKeys | dj_nonrel_install.py:351-357 | for every branch, key i is repository i and directory i is `lib_dirs[i]` |
| Install.ManifestKeyAt | dj_nonrel_install.py:135 | field 4 of a branch's URL i is its repository i |
| Install.OnlyTestappRepo | dj_nonrel_install.py:249-306 | of a branch's repositories, only entry 4 is `django-testapp` |
| Install.LinkSkipsOnlyTestApp | dj_nonrel_install.py:216-217 | for every branch, exactly one entry, entry 4, has the key `django-testapp` that linking skips |
| Install.TablesInfixFree | dj_nonrel_install.py:249-284 | no repository name of either table contains `-<name>-` for any repository name |
| Install.ManifestKeysAreRepos | dj_nonrel_install.py:249-284 | for every branch the manifest keys are, in order, the repository names of that branch's remotes |
| Install.BranchKeysInfixFree | dj_nonrel_install.py:249-284 | the repository names of every branch contain no separator and no `-<name>-` of any of them |
| Install.ManifestRenamesComplete | dj_nonrel_install.py:351-354 | for every branch, a rename batch that completes leaves an entry named after every key (whatever the matched name held, file or directory) |
| Install.InstallingOutcomes | dj_nonrel_install.py:337-341 | a branch run with the root present stops with `mkdir` (`create_install_dir`), untouched; otherwise the root is created before the manifest is looked up, so a branch without a URL list leaves the empty root, and the batches run inside the root |
| Install.RunWithOutcomes | dj_nonrel_install.py:95-119 | a rejected argument ends the run untouched, `--clean` only cleans, a branch token installs; only `--clean` or a run that created the root changes the filesystem |
| Install.RunFollowsManifest | dj_nonrel_install.py:337-357 | in the corrected program, a branch run stops with `mkdir` and changes nothing when the root exists; otherwise it follows the plan of that branch's corrected manifest (for `--dev`/`--develop`, the 1.3 development one) |
| Install.RunAsWrittenFollowsManifest | dj_nonrel_install.py:337-357 | in the program as written, a run of a branch that has a URL list (`--master`, `--dev13`, `--dev14`, `--dev15`) stops with `mkdir` and changes nothing when the root exists; otherwise it follows the plan of that branch's manifest |
| Install.RunRejectsUnknown | dj_nonrel_install.py:116-117 | an unknown token is reported with status 128 before the filesystem is touched |
| Install.RunCleans | dj_nonrel_install.py:101-103 | `--clean` cleans the install root and exits with status 0, whatever follows it |
| Install.RunsAgreeOffAliases | dj_nonrel_install.py:105-117 | the corrected program differs from the written one only for `--dev` and `--develop` |
| Install.DevAliasCrashes | dj_nonrel_install.py:310-311 | as written, `--dev` and `--develop` create the root and then die with `IndexError`, exit status 1, with nothing installed |
| Install.DevAliasInstalls | dj_nonrel_install.py:110 | corrected, the aliases follow the plan of the 1.3 development manifest |

## Left out

- Networking and the 8192-byte read loop of `download`: the outcome of each URL (unreachable, read error, write error, or a body) is an input table; progress output is not modelled.
- The internals of `tarfile`: an archive's payload lists its members, relative to the extraction directory.
- The output of `_exit_error`, `print_final` and `query_user`: the stderr lines, the `<press enter>` wait and the final text. `Errors.Report` models only the error line.
- The order of `os.listdir`: it is supplied by the environment. Properties of `move_dir` assume a listing that names exactly the directory's entries.
- Errors.ExitStatus: gives the status of the file run as a script. Imported as a module, `_exit_error` ends in a bare `raise` (lines 79-80) instead of exiting, which re-raises the exception being handled, or fails for lack of one; the model does not cover that use.
- `os.sep` is `/`. The platform separator on Windows is not modelled.
- Args.Select: requires a program name in `argv`, as `sys.argv` always has one. An empty list would raise `IndexError` at line 99.
- FileSys.Move: is `os.rename` to a free place only. `shutil.move` is `FileSys.ShutilMove`, which nests the source in an existing directory and lets a file replace a file.
- FileSys.ShutilMove: a symbolic link at the destination (or at the nested target) makes the model fail. Python follows a link to a directory and nests the source there, and `os.rename` replaces a link with a regular file. The copy fallback (`copy2` or `copytree`, then delete) that Python runs when `os.rename` fails is not modelled. For moves across devices it does not arise, since the whole install lives in one directory. It also differs from the model when the source is a directory and the destination's parent is missing: `copytree` creates the missing parents and the move succeeds, where the model fails. In the installer the destination's parent is always `django-testapp` or the working directory, and the rename batch (lines 353-354) has put `django-testapp` in place before any link is made (lines 356-357), so the case is not reached by a run whose rename batch succeeded.
- Install.Clean: permission errors during `rmtree` are ignored by the source, so a partly deleted tree is possible. The model deletes the whole tree.
- Archives.Download: `open(fname, "wb")` on a symbolic link writes through the link. The model treats a link at that name as a failure to open.
- Archives.Extract: if an archive has a directory member at the archive's own path, `os.remove` raises there. The model removes that entry anyway.
- Archives.Extract: a regular file member over a symbolic link, or any member below one, counts as a collision. Python writes through a link that leads to a directory or a file. The installer creates no links before extraction.
- Archives.Extract: members are checked against the disk only, not against each other. `tarfile` creates the missing parent directories of a member, and it fails on a member below a file member of the same archive. The model adds only the members. `Archives.ExtractWellFormed` is stated for archives whose members sit inside their own directory members.
- Archives.Extract: a failed extraction changes nothing in the model. `extractall` can fail part-way, leaving the members written before the failure; the model has no archive that is readable up to some member only.
- Linker.LinkResolves: states resolution for single-name `ln_root`, `target` and `ln_name`, as the installer uses them. Deeper paths are not resolved.
- The `symlink` and `cleaning` entries of the error table are never raised by this code: a failed link falls back to a move, and `rmtree` ignores errors. They exist in `Errors.Error` only to mirror the table.
- `unit_test.py` is not part of this model. It needs the network.

## Findings

| source | as written | input that shows it | evidently intended | confidence | as-written member | corrected member |
|---|---|---|---|---|---|---|
| dj_nonrel_install.py:110 | `--dev` and `--develop` are accepted as 1.3 development branches. `get_lib_urls` has no list for them, so `return_list` keeps one entry, and line 311 raises `IndexError` at `i = 1`. By then the install root has been created. | `dj_nonrel_install.py --dev` in a directory without `django-nonrel` | install the `--dev13` manifest, as the message at line 111 announces | not executed | Install.DevAliasCrashes | Install.DevAliasInstalls |

=== FILE: archives.dfy ===
/**
  The Fetcher and the Extractor. The local file name of a download is the
  fifth `/`-separated field of its URL with `.tar.gz` appended; later the
  installer drops those seven characters again to get the directory key back.
  The network and the tar reader are outside the model: what a URL delivers is
  given by a `Net` table, and an archive's members are part of the file's
  payload.
 */
module Archives {
  import opened Wrappers
  import opened Strings
  import opened Errors
  import opened FileSys

  /** The suffix appended to every downloaded file name. */
  const TarGz: string := ".tar.gz"

  /** How fetching one URL goes. A URL missing from the table cannot be reached. */
  datatype Fetch =
    | Unreachable
    | ReadBreaks
    | WriteBreaks
    | Body(data: Payload)

  type Net = map<string, Fetch>

  /** The state after one step, with the step's result. */
  datatype Effect<T> = Effect(fs: FileSystem, out: Result<T, Failure>)

  /**
    The local name of the archive downloaded from `url`: its field 4 plus
    `.tar.gz`. A URL with fewer than five fields has no field 4.
   */
  function ArchiveName(url: string): (r: Option<string>)
    ensures r.Some? <==> |Split(url, Sep)| >= 5
    ensures r.Some? ==> EndsWith(r.value, TarGz)
    ensures r.Some? ==> Stem(r.value) == Split(url, Sep)[4]
    ensures r.Some? ==> Sep !in r.value
    ensures r.Some? ==> Flag(r.value) == Gz
  {
    var fields := Split(url, Sep);
    if |fields| < 5 then None
    else
      DropLastAppended(fields[4], TarGz);
      Some(fields[4] + ".tar.gz")
  }

  /** The directory key recovered from a file name: `fname[:-7]`. */
  function Stem(fname: string): string {
    DropLast(fname, 7)
  }

  /** The decompression flag chosen from the file name's suffix. */
  function Flag(fname: string): (c: Compression)
    ensures c == Gz <==> EndsWith(fname, TarGz)
  {
    if EndsWith(fname, ".tar.gz") then Gz else Bz2
  }

  /**
    `open(fname, "wb")` succeeds on a path whose parent is a directory and
    which is absent or a regular file (which it truncates).
   */
  predicate CanOpenForWrite(fs: FileSystem, p: Path) {
    ParentIsDir(fs, p) && (p !in fs || fs[p].File?)
  }

  /** The errors a download can report for `url`. */
  predicate DownloadError(err: Error, url: string)
    requires ArchiveName(url).Some?
  {
    var fname := ArchiveName(url).value;
    err == FileOpen(fname) || err == UrlOpen(url) || err == UrlRead(url) || err == FileWrite(fname)
  }

  /**
    Download `url` into the working directory `cwd`. The local file is
    opened, and so created or truncated, before the connection is made, so a
    failure after that point leaves it behind with unknown contents.
   */
  function Download(fs: FileSystem, cwd: Path, url: string, net: Net): (e: Effect<string>)
    ensures e.out.Success? <==>
      ArchiveName(url).Some? && CanOpenForWrite(fs, At(cwd, ArchiveName(url).value))
      && url in net && net[url].Body?
    ensures e.out.Success? ==>
      ArchiveName(url) == Some(e.out.value) && e.fs == fs[At(cwd, e.out.value) := File(net[url].data)]
  {
    match ArchiveName(url)
    case None => Effect(fs, Failure(Crash(IndexOutOfRange)))
    case Some(fname) =>
      var p := At(cwd, fname);
      if !CanOpenForWrite(fs, p) then Effect(fs, Failure(Fatal(FileOpen(fname))))
      else
        var truncated := fs[p := File(Opaque)];
        var fetch := if url in net then net[url] else Unreachable;
        match fetch
        case Unreachable => Effect(truncated, Failure(Fatal(UrlOpen(url))))
        case ReadBreaks => Effect(truncated, Failure(Fatal(UrlRead(url))))
        case WriteBreaks => Effect(truncated, Failure(Fatal(FileWrite(fname))))
        case Body(data) => Effect(fs[p := File(data)], Success(fname))
  }

  /**
    How a download fails: a URL without a field 4 crashes before anything is
    touched; a file that cannot be opened gives `fileopen` with nothing
    changed; any later failure leaves the file behind, truncated, and names
    the URL or the file.
   */
  lemma DownloadFailure(fs: FileSystem, cwd: Path, url: string, net: Net)
    ensures var e := Download(fs, cwd, url, net);
      && (ArchiveName(url).None? ==> e == Effect(fs, Failure(Crash(IndexOutOfRange))))
      && (ArchiveName(url).Some? && !CanOpenForWrite(fs, At(cwd, ArchiveName(url).value)) ==>
            e == Effect(fs, Failure(Fatal(FileOpen(ArchiveName(url).value)))))
      && (ArchiveName(url).Some? && CanOpenForWrite(fs, At(cwd, ArchiveName(url).value)) && e.out.Failure? ==>
            e.fs == fs[At(cwd, ArchiveName(url).value) := File(Opaque)])
      && (ArchiveName(url).Some? && e.out.Failure? ==> e.out.error.Fatal? && DownloadError(e.out.error.error, url))
  {
  }

  /** The members of an archive placed below the directory it is extracted into. */
  function Extracted(cwd: Path, members: map<Path, Node>): (placed: FileSystem)
    ensures forall m :: m in members ==> cwd + m in placed && placed[cwd + m] == members[m]
    ensures forall q :: q in placed ==> Under(q, cwd) && q[|cwd|..] in members
  {
    var placed := Shifted(members, [], cwd);
    assert forall m :: m in members ==> Rebase(m, [], cwd) == cwd + m;
    placed
  }

  /** The archive at `p` can be opened with the flag chosen for `fname`. */
  predicate Readable(fs: FileSystem, p: Path, fname: string) {
    p in fs && fs[p].File? && fs[p].data.Tarball? && fs[p].data.format == Flag(fname)
  }

  /**
    Every member can be written over what is already on disk. A regular file
    member is opened for writing, which fails on a directory; a symbolic link
    member unlinks what is there first, which fails on a directory; a
    directory member accepts whatever is there already, because `mkdir`'s
    "exists" error is ignored. Nothing can be written below an entry that is
    not a directory: opening and `os.makedirs` both stop at it.
   */
  predicate Fits(fs: FileSystem, cwd: Path, members: map<Path, Node>) {
    forall m :: m in members ==>
      && (cwd + m in fs && fs[cwd + m].Dir? ==> members[m].Dir?)
      && (cwd + m in fs && fs[cwd + m].Link? ==> !members[m].File?)
      && (forall k :: 1 <= k < |m| && cwd + m[..k] in fs ==> fs[cwd + m[..k]].Dir?)
  }

  /**
    What extraction leaves before the archive is deleted: every member
    written below `cwd`, except that a directory member leaves an entry that
    is already there as it is.
   */
  function Unpacked(fs: FileSystem, cwd: Path, members: map<Path, Node>): FileSystem {
    var placed := Extracted(cwd, members);
    map q | q in fs.Keys + placed.Keys :: if q in placed && !(q in fs && placed[q].Dir?) then placed[q] else fs[q]
  }

  /**
    Extract the archive `fname` into `cwd` and then delete the archive. If the
    archive cannot be opened or read with the chosen flag, or a member cannot
    be written over what is on disk, nothing changes and the `untar` error
    names the file.
   */
  function Extract(fs: FileSystem, cwd: Path, fname: string): (e: Effect<()>)
    ensures e.out.Success? <==>
      Readable(fs, At(cwd, fname), fname) && Fits(fs, cwd, fs[At(cwd, fname)].data.members)
    ensures e.out.Failure? ==> e == Effect(fs, Failure(Fatal(Untar(fname))))
  {
    var p := At(cwd, fname);
    if Readable(fs, p, fname) && Fits(fs, cwd, fs[p].data.members) then
      Effect(Unpacked(fs, cwd, fs[p].data.members) - {p}, Success(()))
    else
      Effect(fs, Failure(Fatal(Untar(fname))))
  }

  /**
    The two collisions that make `extractall` raise: a regular file member
    where a directory is, and a member below a regular file. Either way the
    installer reports `untar` and nothing changes.
   */
  lemma ExtractClashFails(fs: FileSystem, cwd: Path, fname: string, m: Path, k: nat)
    requires Readable(fs, At(cwd, fname), fname)
    requires m in fs[At(cwd, fname)].data.members
    requires var members := fs[At(cwd, fname)].data.members;
      || (members[m].File? && cwd + m in fs && fs[cwd + m].Dir?)
      || (1 <= k < |m| && cwd + m[..k] in fs && fs[cwd + m[..k]].File?)
    ensures Extract(fs, cwd, fname) == Effect(fs, Failure(Fatal(Untar(fname))))
  {
  }

  /**
    A successful extraction deletes the archive and places every other
    member below the working directory; a directory member leaves an entry
    already there as it is. Every entry no member lands on is kept, a
    directory stays a directory, and nothing but members is added.
   */
  lemma ExtractEffect(fs: FileSystem, cwd: Path, fname: string)
    requires Extract(fs, cwd, fname).out.Success?
    ensures var p := At(cwd, fname);
      var members := fs[p].data.members;
      var r := Extract(fs, cwd, fname).fs;
      && p !in r
      && (forall m :: m in members && cwd + m != p ==>
            (cwd + m in r && r[cwd + m] == (if members[m].Dir? && cwd + m in fs then fs[cwd + m] else members[m])))
      && (forall q :: q in fs && q != p && q !in Extracted(cwd, members) ==> q in r && r[q] == fs[q])
      && (forall q :: q in fs && q != p && fs[q].Dir? ==> q in r && r[q] == Dir)
      && (forall q :: q in r ==> q in fs || q in Extracted(cwd, members))
  {
    var p := At(cwd, fname);
    var members := fs[p].data.members;
    assert Extract(fs, cwd, fname).fs == Unpacked(fs, cwd, members) - {p};
    UnpackedEffect(fs, cwd, members);
  }

  /** `Unpacked`, entry by entry. */
  lemma UnpackedEffect(fs: FileSystem, cwd: Path, members: map<Path, Node>)
    requires Fits(fs, cwd, members)
    ensures var u := Unpacked(fs, cwd, members);
      && (forall m :: m in members ==>
            (cwd + m in u && u[cwd + m] == (if members[m].Dir? && cwd + m in fs then fs[cwd + m] else members[m])))
      && (forall q :: q in fs && q !in Extracted(cwd, members) ==> q in u && u[q] == fs[q])
      && (forall q :: q in fs && fs[q].Dir? ==> q in u && u[q] == Dir)
      && (forall q :: q in u ==> q in fs || q in Extracted(cwd, members))
  {
    var placed := Extracted(cwd, members);
    forall q | q in fs && fs[q].Dir? && q in placed
      ensures placed[q].Dir?
    {
      var m := q[|cwd|..];
      assert q == cwd + m;
    }
  }

  /**
    The members of a well-built archive: none names the extraction directory
    itself, and each one below the top sits inside a directory member.
   */
  predicate Rooted(members: map<Path, Node>) {
    forall m :: m in members ==> |m| >= 1 && (|m| >= 2 ==> Parent(m) in members && members[Parent(m)].Dir?)
  }

  /**
    Extracting a well-built archive into a directory keeps the filesystem
    well formed.
   */
  lemma ExtractWellFormed(fs: FileSystem, cwd: Path, fname: string)
    requires WellFormed(fs)
    requires |cwd| == 0 || (cwd in fs && fs[cwd].Dir?)
    requires Extract(fs, cwd, fname).out.Success?
    requires Rooted(fs[At(cwd, fname)].data.members)
    ensures WellFormed(Extract(fs, cwd, fname).fs)
  {
    var p := At(cwd, fname);
    var members := fs[p].data.members;
    assert Extract(fs, cwd, fname).fs == Unpacked(fs, cwd, members) - {p};
    UnpackedWellFormed(fs, cwd, members, p);
  }

  /** Unpacking a well-built archive and deleting a regular file outside it keeps the invariant. */
  lemma UnpackedWellFormed(fs: FileSystem, cwd: Path, members: map<Path, Node>, p: Path)
    requires WellFormed(fs)
    requires |cwd| == 0 || (cwd in fs && fs[cwd].Dir?)
    requires Fits(fs, cwd, members) && Rooted(members)
    requires p in fs && fs[p].File? && |p| > |cwd|
    ensures WellFormed(Unpacked(fs, cwd, members) - {p})
  {
    var r := Unpacked(fs, cwd, members) - {p};
    forall q | q in r
      ensures ParentIsDir(r, q)
    {
      if q in Extracted(cwd, members) {
        MemberParent(fs, cwd, members, p, q);
      } else {
        UntouchedParent(fs, cwd, members, p, q);
      }
    }
  }

  /** A placed member sits inside the extraction directory or a directory member. */
  lemma MemberParent(fs: FileSystem, cwd: Path, members: map<Path, Node>, p: Path, q: Path)
    requires |cwd| == 0 || (cwd in fs && fs[cwd].Dir?)
    requires Fits(fs, cwd, members) && Rooted(members)
    requires p in fs && fs[p].File? && |p| > |cwd|
    requires q in Extracted(cwd, members)
    ensures ParentIsDir(Unpacked(fs, cwd, members) - {p}, q)
  {
    var m := q[|cwd|..];
    assert q == cwd + m && m in members;
    if |m| >= 2 {
      var pm := Parent(m);
      assert pm == m[..|m| - 1];
      assert cwd + pm in fs ==> fs[cwd + pm].Dir?;
      InnerMemberParent(fs, cwd, members, p, m);
    } else {
      TopMemberParent(fs, cwd, members, p, m);
    }
  }

  /** A top-level member sits in the extraction directory. */
  lemma TopMemberParent(fs: FileSystem, cwd: Path, members: map<Path, Node>, p: Path, m: Path)
    requires |cwd| == 0 || (cwd in fs && fs[cwd].Dir?)
    requires Rooted(members)
    requires |p| > |cwd|
    requires m in members && |m| == 1
    ensures ParentIsDir(Unpacked(fs, cwd, members) - {p}, cwd + m)
  {
    var placed := Extracted(cwd, members);
    assert Parent(cwd + m) == cwd;
    assert cwd[|cwd|..] == [] && [] !in members;
  }

  /** A deeper member sits in the directory its parent member became. */
  lemma InnerMemberParent(fs: FileSystem, cwd: Path, members: map<Path, Node>, p: Path, m: Path)
    requires Rooted(members)
    requires p in fs && fs[p].File?
    requires m in members && |m| >= 2
    requires cwd + Parent(m) in fs ==> fs[cwd + Parent(m)].Dir?
    ensures ParentIsDir(Unpacked(fs, cwd, members) - {p}, cwd + m)
  {
    var placed := Extracted(cwd, members);
    var pm := Parent(m);
    assert Parent(cwd + m) == cwd + pm;
    assert cwd + pm in placed && placed[cwd + pm] == Dir;
  }

  /** An entry no member lands on keeps a directory as its parent. */
  lemma UntouchedParent(fs: FileSystem, cwd: Path, members: map<Path, Node>, p: Path, q: Path)
    requires WellFormed(fs)
    requires Fits(fs, cwd, members)
    requires p in fs && fs[p].File?
    requires q in fs && q !in Extracted(cwd, members)
    ensures ParentIsDir(Unpacked(fs, cwd, members) - {p}, q)
  {
    var placed := Extracted(cwd, members);
    assert ParentIsDir(fs, q);
    if |q| >= 2 {
      var par := Parent(q);
      if par in placed {
        var m := par[|cwd|..];
        assert par == cwd + m;
      }
    }
  }
}

=== FILE: args.dfy ===
/**
  Command-line selection: the first argument after the program name picks
  either the clean mode or one of the branches to install.
 */
module Args {
  import opened Wrappers
  import opened Errors

  /** Where the installer puts everything, relative to where it was started. */
  const InstallDir: string := "django-nonrel"

  /** The branch installed when no argument is given. */
  const DefaultBranch: string := "--master"

  const CleanToken: string := "--clean"

  /** Every token accepted as a branch, including the two aliases of `--dev13`. */
  const BranchTokens: set<string> := {"--master", "--dev13", "--dev", "--develop", "--dev14", "--dev15"}

  /** What the invocation asks for. `Install` keeps the token exactly as given. */
  datatype Selection = Clean | Install(branch: string)

  /**
    The constructor's argument handling. Only `argv[1]` is read, so anything
    after it is ignored. `--clean` is looked at before any other token.
   */
  function Select(argv: seq<string>): (r: Result<Selection, Error>)
    requires |argv| >= 1
    ensures |argv| == 1 ==> r == Success(Install(DefaultBranch))
    ensures |argv| >= 2 ==> (r == Success(Clean) <==> argv[1] == CleanToken)
    ensures |argv| >= 2 ==> (r == Success(Install(argv[1])) <==> argv[1] in BranchTokens)
    ensures |argv| >= 2 ==> (r == Failure(UnknownArg(argv[1])) <==> argv[1] != CleanToken && argv[1] !in BranchTokens)
    ensures r.Success? && r.value.Install? ==> r.value.branch in BranchTokens
  {
    var arg1 := if |argv| == 1 then "--master" else argv[1];
    if arg1 == "--clean" then Success(Clean)
    else if arg1 == "--master" then Success(Install(arg1))
    else if arg1 == "--dev13" || arg1 == "--dev" || arg1 == "--develop" then Success(Install(arg1))
    else if arg1 == "--dev14" then Success(Install(arg1))
    else if arg1 == "--dev15" then Success(Install(arg1))
    else Failure(UnknownArg(arg1))
  }
}

=== FILE: errors.dfy ===
/**
  The installer's error taxonomy. Every fatal error the installer reports goes
  through one reporting routine keyed by a short code; each code has a message
  template with one `%s` slot for the offending argument, path or URL. A
  reported error ends the process with status 128 when the file runs as a
  script. An exception that escapes that routine (an `IndexError`, say) ends
  it the way any uncaught Python exception does, with status 1.
 */
module Errors {
  import opened Wrappers

  /** One case per key of the message table; the payload fills the `%s` slot. */
  datatype Error =
    | UnknownArg(arg: string)
    | Mkdir(dir: string)
    | FileOpen(fname: string)
    | UrlOpen(url: string)
    | FileWrite(fname: string)
    | UrlRead(url: string)
    | Untar(fname: string)
    | MoveDir(what: string)
    | PathExists(name: string)
    | NotFound(key: string)
    | Symlink(from: string)
    | Cleaning(dir: string)

  /** Why a run stopped: a reported error, or an exception nobody caught. */
  datatype Failure = Fatal(error: Error) | Crash(exception: string)

  /** The exit status of the reporting routine. */
  const ReportedExit: int := 128

  /** The exit status of a Python process killed by an uncaught exception. */
  const UncaughtExit: int := 1

  /**
    The exception Python raises for a list index past the end: `url.split('/')[4]`
    on a short URL, and the first index into a branch's missing URL list.
   */
  const IndexOutOfRange: string := "IndexError: list index out of range"

  /** The key under which the message table files an error. */
  function Code(e: Error): string {
    match e
    case UnknownArg(_) => "unknownarg"
    case Mkdir(_) => "mkdir"
    case FileOpen(_) => "fileopen"
    case UrlOpen(_) => "urlopen"
    case FileWrite(_) => "filewrite"
    case UrlRead(_) => "urlread"
    case Untar(_) => "untar"
    case MoveDir(_) => "movedir"
    case PathExists(_) => "pathexists"
    case NotFound(_) => "notfound"
    case Symlink(_) => "symlink"
    case Cleaning(_) => "cleaning"
  }

  /** The value substituted for the `%s` slot of the message. */
  function Subject(e: Error): string {
    match e
    case UnknownArg(a) => a
    case Mkdir(d) => d
    case FileOpen(f) => f
    case UrlOpen(u) => u
    case FileWrite(f) => f
    case UrlRead(u) => u
    case Untar(f) => f
    case MoveDir(w) => w
    case PathExists(n) => n
    case NotFound(k) => k
    case Symlink(f) => f
    case Cleaning(d) => d
  }

  /** The message template split at its `%s` slot. */
  function Template(e: Error): (string, string) {
    match e
    case UnknownArg(_) => ("Unknown argument: ", "\n--dev13 --dev14 --dev15 --clean")
    case Mkdir(_) => ("Failed to create sub dir: ", "\n(Run with option --clean to remove an old install)")
    case FileOpen(_) => ("Opening file: ", "\n(Run with option --clean to remove an old install)")
    case UrlOpen(_) => ("Connecting to the url:\n", "")
    case FileWrite(_) => ("Saving to file: ", "")
    case UrlRead(_) => ("Reading from url: ", "")
    case Untar(_) => ("Extracting archive: ", "")
    case MoveDir(_) => ("Renaming directory from: ", "")
    case PathExists(_) => ("Path name already exists: ", "\n(If trying to install twice, erase all files and begin again)")
    case NotFound(_) => ("Could not find a directory name containing: ", "")
    case Symlink(_) => ("Could not create symbolic link from: ", "")
    case Cleaning(_) => ("Failed to delete: ", "")
  }

  /** The line written to the error stream: `Error <code>: message` and a blank line. */
  function Report(e: Error): string {
    "Error <" + Code(e) + ">: " + Template(e).0 + Subject(e) + Template(e).1 + "\n\n"
  }

  /**
    The report starts with the error's code in angle brackets, names its
    subject verbatim right after the template's head, and ends with a blank
    line.
   */
  lemma ReportNamesSubject(e: Error)
    ensures var start := 10 + |Code(e)| + |Template(e).0|;
            && start + |Subject(e)| <= |Report(e)|
            && Report(e)[..8 + |Code(e)|] == "Error <" + Code(e) + ">"
            && Report(e)[start..start + |Subject(e)|] == Subject(e)
            && Report(e)[|Report(e)| - 2..] == "\n\n"
  {
    ReportLine(Code(e), Template(e).0, Subject(e), Template(e).1);
  }

  /** Where the subject sits in an error line, whatever the code and template. */
  lemma ReportLine(code: string, head: string, subject: string, tail: string)
    ensures var line := "Error <" + code + ">: " + head + subject + tail + "\n\n";
      var start := 10 + |code| + |head|;
      && start + |subject| <= |line|
      && line[..8 + |code|] == "Error <" + code + ">"
      && line[start..start + |subject|] == subject
      && line[|line| - 2..] == "\n\n"
  {
    var prefix := "Error <" + code + ">: " + head;
    assert |prefix| == 10 + |code| + |head|;
    assert "Error <" + code + ">: " + head + subject + tail + "\n\n" == prefix + subject + (tail + "\n\n");
  }

  /** The process exit status of a run that ended in `out`. */
  function ExitStatus(out: Result<(), Failure>): (status: int)
    ensures status == 0 <==> out.Success?
    ensures out.Failure? && out.error.Fatal? ==> status == ReportedExit
  {
    match out
    case Success(_) => 0
    case Failure(Fatal(_)) => ReportedExit
    case Failure(Crash(_)) => UncaughtExit
  }
}

=== FILE: filesys.dfy ===
/**
  An abstract filesystem: a finite map from paths (sequences of names) to the
  node stored there. The installer only ever creates directories, writes
  whole files, creates symbolic links, renames subtrees and deletes subtrees,
  so these are the operations modelled. A string path from the installer is
  turned into a `Path` by splitting it on the separator and appending it to
  the current working directory.
 */
module FileSys {
  import opened Wrappers
  import opened Strings

  type Path = seq<string>

  /** The compression schemes the extractor can ask the tar reader for. */
  datatype Compression = Gz | Bz2

  /**
    What a regular file holds: bytes the model does not look into, or a tar
    archive compressed with `format` whose members are given relative to the
    directory it is extracted into.
   */
  datatype Payload = Opaque | Tarball(format: Compression, members: map<Path, Node>)

  datatype Node = File(data: Payload) | Dir | Link(target: string)

  type FileSystem = map<Path, Node>

  /** The path a string path names when resolved against `cwd`. */
  function At(cwd: Path, name: string): Path {
    cwd + Split(name, Sep)
  }

  /** A name without a separator resolves to a single entry of `cwd`. */
  lemma AtPlainName(cwd: Path, name: string)
    requires Sep !in name
    ensures At(cwd, name) == cwd + [name]
  {
    SplitWithoutSep(name, Sep);
  }

  /** `p` is `root` or lies somewhere below it. */
  predicate Under(p: Path, root: Path) {
    |root| <= |p| && p[..|root|] == root
  }

  /** An entry directly inside `cwd` lies under the path `name` names only if `name` is its name. */
  lemma UnderOnlyItself(cwd: Path, name: string, other: string)
    ensures Under(cwd + [other], At(cwd, name)) ==> name == other
  {
    var parts := Split(name, Sep);
    var p := cwd + [other];
    if Under(p, At(cwd, name)) {
      assert |parts| == 1;
      assert p[..|cwd| + 1] == cwd + parts;
      assert parts[0] == (cwd + parts)[|cwd|] == p[|cwd|] == other;
      assert Join(parts, Sep) == other;
    }
  }

  function Parent(p: Path): Path
    requires |p| >= 1
  {
    p[..|p| - 1]
  }

  /** `p` could be created: it names something, and its parent is a directory. */
  predicate ParentIsDir(fs: FileSystem, p: Path) {
    |p| >= 1 && (|p| == 1 || (Parent(p) in fs && fs[Parent(p)].Dir?))
  }

  /**
    Well-formed: the root itself is not an entry, and every entry other than
    one at the top level sits inside an existing directory.
   */
  ghost predicate WellFormed(fs: FileSystem) {
    forall p :: p in fs ==> ParentIsDir(fs, p)
  }

  /** Nothing exists at `p` or below it. */
  predicate Vacant(fs: FileSystem, p: Path) {
    forall q :: q in fs ==> !Under(q, p)
  }

  /** In a well-formed filesystem every ancestor of an entry is an entry. */
  lemma {:induction false} AncestorPresent(fs: FileSystem, q: Path, k: nat)
    requires WellFormed(fs)
    requires q in fs
    requires 1 <= k <= |q|
    ensures q[..k] in fs
    decreases |q| - k
  {
    if k < |q| {
      AncestorPresent(fs, q, k + 1);
      var a := q[..k + 1];
      assert ParentIsDir(fs, a);
      assert Parent(a) == q[..k];
    } else {
      assert q[..k] == q;
    }
  }

  /** In a well-formed filesystem, "does not exist" and "nothing below it" agree. */
  lemma VacantIffAbsent(fs: FileSystem, p: Path)
    requires WellFormed(fs)
    requires |p| >= 1
    ensures Vacant(fs, p) <==> p !in fs
  {
    if p !in fs {
      forall q | q in fs
        ensures !Under(q, p)
      {
        if Under(q, p) {
          AncestorPresent(fs, q, |p|);
        }
      }
    }
  }

  /** `os.mkdir`: fails when the path exists or its parent is not a directory. */
  function MkDir(fs: FileSystem, p: Path): (r: Option<FileSystem>)
    ensures r.Some? <==> p !in fs && ParentIsDir(fs, p)
    ensures r.Some? ==> r.value.Keys == fs.Keys + {p} && r.value[p] == Dir
    ensures r.Some? ==> forall q :: q in fs ==> r.value[q] == fs[q]
  {
    if p in fs || !ParentIsDir(fs, p) then None else Some(fs[p := Dir])
  }

  /** Everything at or below `root` deleted, everything else kept as it was. */
  function RemoveTree(fs: FileSystem, root: Path): (r: FileSystem)
    ensures forall p :: p in r <==> p in fs && !Under(p, root)
    ensures forall p :: p in r ==> r[p] == fs[p]
  {
    map p | p in fs && !Under(p, root) :: fs[p]
  }

  /** Removing a subtree keeps a filesystem well-formed. */
  lemma RemoveTreeWellFormed(fs: FileSystem, root: Path)
    requires WellFormed(fs)
    ensures WellFormed(RemoveTree(fs, root))
  {
    var r := RemoveTree(fs, root);
    forall p | p in r
      ensures ParentIsDir(r, p)
    {
      assert ParentIsDir(fs, p);
    }
  }

  /** `dst` followed by what follows `src` in `p`. */
  function Rebase(p: Path, src: Path, dst: Path): Path
    requires Under(p, src)
  {
    dst + p[|src|..]
  }

  /** Distinct paths below `src` are rebased to distinct paths. */
  lemma RebaseInjective(src: Path, dst: Path)
    ensures forall p1, p2 :: Under(p1, src) && Under(p2, src) && Rebase(p1, src, dst) == Rebase(p2, src, dst) ==> p1 == p2
  {
    forall p1, p2 | Under(p1, src) && Under(p2, src) && Rebase(p1, src, dst) == Rebase(p2, src, dst)
      ensures p1 == p2
    {
      assert p1[|src|..] == Rebase(p1, src, dst)[|dst|..];
      assert p2[|src|..] == Rebase(p2, src, dst)[|dst|..];
      assert p1 == src + p1[|src|..];
      assert p2 == src + p2[|src|..];
    }
  }

  /** The entries at or below `src`, rebased to sit at or below `dst`. */
  function Shifted(fs: FileSystem, src: Path, dst: Path): (m: FileSystem)
    ensures forall p :: p in fs && Under(p, src) ==> Rebase(p, src, dst) in m && m[Rebase(p, src, dst)] == fs[p]
    ensures forall q :: q in m ==> Under(q, dst)
    ensures forall q :: q in m ==> Under(q, dst) && Rebase(q, dst, src) in fs && Under(Rebase(q, dst, src), src) && m[q] == fs[Rebase(q, dst, src)]
  {
    RebaseInjective(src, dst);
    var m := map p | p in fs && Under(p, src) :: Rebase(p, src, dst) := fs[p];
    assert forall q :: q in m ==> Under(q, dst) && Rebase(q, dst, src) in fs && Under(Rebase(q, dst, src), src) && m[q] == fs[Rebase(q, dst, src)] by {
      forall q | q in m
        ensures Under(q, dst) && Rebase(q, dst, src) in fs && Under(Rebase(q, dst, src), src) && m[q] == fs[Rebase(q, dst, src)]
      {
        var p :| p in fs && Under(p, src) && Rebase(p, src, dst) == q;
        assert q[..|dst|] == dst;
        assert Rebase(q, dst, src) == p by {
          assert q[|dst|..] == p[|src|..];
          assert p == src + p[|src|..];
        }
      }
    }
    m
  }

  /**
    The subtree at `src` relabelled so that it sits at `dst`; entries outside
    it stay where they are.
   */
  function Relabel(fs: FileSystem, src: Path, dst: Path): FileSystem {
    (map p | p in fs && !Under(p, src) :: fs[p]) + Shifted(fs, src, dst)
  }

  /**
    When `os.rename` can move `src` to a free `dst`: the source
    exists, nothing exists at the destination, the destination's parent is a
    directory and the destination is not inside the source.
   */
  predicate CanMove(fs: FileSystem, src: Path, dst: Path) {
    src in fs && Vacant(fs, dst) && ParentIsDir(fs, dst) && !Under(dst, src)
  }

  /** Rename `src` to `dst`, taking the subtree below it along. */
  function Move(fs: FileSystem, src: Path, dst: Path): (r: Option<FileSystem>)
    ensures r.Some? <==> CanMove(fs, src, dst)
  {
    if CanMove(fs, src, dst) then Some(Relabel(fs, src, dst)) else None
  }

  /**
    What a successful move does: the destination holds what the source held,
    the source and everything below it is gone, each entry below the source
    reappears at the matching place below the destination, and every entry
    outside both subtrees is unchanged.
   */
  lemma MoveEffect(fs: FileSystem, src: Path, dst: Path)
    requires CanMove(fs, src, dst)
    ensures var r := Move(fs, src, dst).value;
      && dst in r && r[dst] == fs[src]
      && (forall p :: p in fs && Under(p, src) ==> p !in r)
      && (forall p :: p in fs && Under(p, src) ==> Rebase(p, src, dst) in r && r[Rebase(p, src, dst)] == fs[p])
      && (forall p :: p in fs && !Under(p, src) ==> p in r && r[p] == fs[p])
      && (forall q :: q in r && !Under(q, dst) ==> q in fs && !Under(q, src) && r[q] == fs[q])
      && (forall q :: q in r && Under(q, dst) ==> Rebase(q, dst, src) in fs && Under(Rebase(q, dst, src), src) && r[q] == fs[Rebase(q, dst, src)])
  {
    var r := Relabel(fs, src, dst);
    var m := Shifted(fs, src, dst);
    assert Rebase(src, src, dst) == dst;
    assert forall p :: p in fs ==> !Under(p, dst);
  }

  /** Outside both subtrees a move changes nothing, in either direction. */
  lemma MoveOutside(fs: FileSystem, src: Path, dst: Path)
    requires CanMove(fs, src, dst)
    ensures var r := Move(fs, src, dst).value;
      && (forall p :: p in fs && !Under(p, src) ==> p in r && r[p] == fs[p])
      && (forall q :: q in r && !Under(q, dst) ==> q in fs && !Under(q, src) && r[q] == fs[q])
  {
    assert forall p :: p in fs ==> !Under(p, dst);
  }

  /** A moved entry sits at its destination, and is gone from where it was. */
  lemma MovePlaced(fs: FileSystem, src: Path, dst: Path)
    requires CanMove(fs, src, dst)
    ensures var r := Move(fs, src, dst).value;
      dst in r && r[dst] == fs[src] && src !in r
  {
    MoveEffect(fs, src, dst);
    assert Under(src, src);
  }

  /** Inside the subtrees a move relabels, in either direction. */
  lemma MoveInside(fs: FileSystem, src: Path, dst: Path)
    requires CanMove(fs, src, dst)
    ensures var r := Move(fs, src, dst).value;
      && (forall p :: p in fs && Under(p, src) ==> Rebase(p, src, dst) in r && r[Rebase(p, src, dst)] == fs[p])
      && (forall q :: q in r && Under(q, dst) ==> Rebase(q, dst, src) in fs && Under(Rebase(q, dst, src), src) && r[q] == fs[Rebase(q, dst, src)])
  {
    assert forall p :: p in fs ==> !Under(p, dst);
  }

  /** A path below the parent of `q` that reaches `root` puts `q` below `root` too. */
  lemma ParentUnder(q: Path, root: Path)
    requires |q| >= 1
    ensures Under(Parent(q), root) ==> Under(q, root)
  {
    if Under(Parent(q), root) {
      assert q[..|root|] == Parent(q)[..|root|];
    }
  }

  /** Two roots above the same path lie one above the other. */
  lemma UnderBoth(q: Path, a: Path, b: Path)
    ensures Under(q, a) && Under(q, b) ==> Under(a, b) || Under(b, a)
  {
    if Under(q, a) && Under(q, b) {
      if |a| <= |b| {
        assert b[..|a|] == q[..|a|];
      } else {
        assert a[..|b|] == q[..|b|];
      }
    }
  }

  /** The parent of a rebased path is the rebased parent. */
  lemma RebaseParent(p: Path, src: Path, dst: Path)
    requires Under(p, src) && |p| > |src|
    ensures Under(Parent(p), src)
    ensures Parent(Rebase(p, src, dst)) == Rebase(Parent(p), src, dst)
  {
    assert Parent(p)[..|src|] == p[..|src|];
  }

  /** Moving keeps a filesystem well-formed. */
  lemma MoveWellFormed(fs: FileSystem, src: Path, dst: Path)
    requires WellFormed(fs)
    requires CanMove(fs, src, dst)
    ensures WellFormed(Move(fs, src, dst).value)
  {
    var r := Move(fs, src, dst).value;
    MoveEffect(fs, src, dst);
    forall q | q in r
      ensures ParentIsDir(r, q)
    {
      if q == dst {
        MovedRootParent(fs, src, dst);
      } else if Under(q, dst) {
        MovedInnerParent(fs, src, dst, q);
      } else {
        KeptParent(fs, src, dst, q);
      }
    }
  }

  lemma MovedRootParent(fs: FileSystem, src: Path, dst: Path)
    requires CanMove(fs, src, dst)
    ensures ParentIsDir(Move(fs, src, dst).value, dst)
  {
    MoveEffect(fs, src, dst);
    if |dst| > 1 {
      assert !Under(Parent(dst), dst);
    }
  }

  lemma MovedInnerParent(fs: FileSystem, src: Path, dst: Path, q: Path)
    requires WellFormed(fs)
    requires CanMove(fs, src, dst)
    requires q in Move(fs, src, dst).value && Under(q, dst) && q != dst
    ensures ParentIsDir(Move(fs, src, dst).value, q)
  {
    MoveEffect(fs, src, dst);
    assert |q| > |dst|;
    var p := Rebase(q, dst, src);
    assert |p| > |src|;
    assert ParentIsDir(fs, p);
    RebaseParent(p, src, dst);
    assert Rebase(p, src, dst) == q by {
      assert p[|src|..] == q[|dst|..];
      assert q == dst + q[|dst|..];
    }
  }

  lemma KeptParent(fs: FileSystem, src: Path, dst: Path, q: Path)
    requires WellFormed(fs)
    requires CanMove(fs, src, dst)
    requires q in Move(fs, src, dst).value && !Under(q, dst)
    ensures ParentIsDir(Move(fs, src, dst).value, q)
  {
    MoveOutside(fs, src, dst);
    assert q in fs && !Under(q, src);
    assert ParentIsDir(fs, q);
    if |q| > 1 {
      ParentUnder(q, src);
      assert Parent(q) in fs && !Under(Parent(q), src);
    }
  }

  /** Rebasing there and back is the identity. */
  lemma RebaseRoundTrip(p: Path, src: Path, dst: Path)
    requires Under(p, src)
    ensures Under(Rebase(p, src, dst), dst)
    ensures Rebase(Rebase(p, src, dst), dst, src) == p
  {
    var q := Rebase(p, src, dst);
    assert q[..|dst|] == dst;
    assert q[|dst|..] == p[|src|..];
    assert p == src + p[|src|..];
  }

  /** After a move, the source may be moved back. */
  lemma MoveBackAllowed(fs: FileSystem, src: Path, dst: Path)
    requires CanMove(fs, src, dst)
    requires ParentIsDir(fs, src)
    ensures CanMove(Move(fs, src, dst).value, dst, src)
  {
    var r := Move(fs, src, dst).value;
    MoveOutside(fs, src, dst);
    MoveInside(fs, src, dst);
    assert Under(src, src) && Rebase(src, src, dst) == dst;
    assert dst in r;
    assert !Under(src, dst) by {
      assert src in fs;
    }
    forall q | q in r
      ensures !Under(q, src)
    {
      UnderBoth(q, src, dst);
    }
    if |src| > 1 {
      ParentUnder(src, src);
      assert Parent(src) in fs && !Under(Parent(src), src);
    }
  }

  /** A move is undone by moving the destination back to the source. */
  lemma MoveBack(fs: FileSystem, src: Path, dst: Path)
    requires CanMove(fs, src, dst)
    requires ParentIsDir(fs, src)
    ensures CanMove(Move(fs, src, dst).value, dst, src)
    ensures Move(Move(fs, src, dst).value, dst, src) == Some(fs)
  {
    MoveBackAllowed(fs, src, dst);
    var r := Move(fs, src, dst).value;
    var r2 := Move(r, dst, src).value;
    forall p | p in fs
      ensures p in r2 && r2[p] == fs[p]
    {
      MoveBackKeeps(fs, src, dst, p);
    }
    forall q | q in r2
      ensures q in fs
    {
      MoveBackAdds(fs, src, dst, q);
    }
    assert r2 == fs;
  }

  lemma MoveBackKeeps(fs: FileSystem, src: Path, dst: Path, p: Path)
    requires CanMove(fs, src, dst)
    requires CanMove(Move(fs, src, dst).value, dst, src)
    requires p in fs
    ensures var r2 := Move(Move(fs, src, dst).value, dst, src).value;
      p in r2 && r2[p] == fs[p]
  {
    var r := Move(fs, src, dst).value;
    MoveEffect(fs, src, dst);
    MoveEffect(r, dst, src);
    if Under(p, src) {
      RebaseRoundTrip(p, src, dst);
    }
  }

  lemma MoveBackAdds(fs: FileSystem, src: Path, dst: Path, q: Path)
    requires CanMove(fs, src, dst)
    requires CanMove(Move(fs, src, dst).value, dst, src)
    requires q in Move(Move(fs, src, dst).value, dst, src).value
    ensures q in fs
  {
    var r := Move(fs, src, dst).value;
    if Under(q, src) {
      MoveInside(r, dst, src);
      var m := Rebase(q, src, dst);
      assert m in r && Under(m, dst);
      MoveInside(fs, src, dst);
      RebaseRoundTrip(q, src, dst);
    } else {
      MoveOutside(r, dst, src);
      MoveOutside(fs, src, dst);
    }
  }

  /**
    Where Python 2's `shutil.move(src, dst)` puts `src`: inside `dst`, under
    the source's own last name, when `dst` is a directory other than the
    source itself, and at `dst` otherwise.
   */
  function MoveTarget(fs: FileSystem, src: Path, dst: Path): Path {
    if src != dst && dst in fs && fs[dst].Dir? && |src| >= 1 then dst + [src[|src| - 1]] else dst
  }

  /**
    Python 2's `shutil.move(src, dst)`. Moving a path onto itself changes
    nothing. Onto a directory, the source is renamed into it and fails if its
    name is taken there. A regular file replaces a regular file. Otherwise it
    is `os.rename` to a free place, and the call fails where the rename does.
    Python's copying fallback is left out: it also fails in most of those
    cases, but not for a directory whose destination's parent is missing,
    which `copytree` creates before copying.
   */
  function ShutilMove(fs: FileSystem, src: Path, dst: Path): (r: Option<FileSystem>)
    ensures r.Some? ==> src in fs
    ensures dst !in fs ==> r == Move(fs, src, dst)
    ensures MoveTarget(fs, src, dst) != dst ==> (r.Some? <==> CanMove(fs, src, MoveTarget(fs, src, dst)))
  {
    if src == dst then (if src in fs then Some(fs) else None)
    else if dst in fs && fs[dst].Dir? && |src| >= 1 then Move(fs, src, dst + [src[|src| - 1]])
    else if src in fs && fs[src].File? && dst in fs && fs[dst].File? then Some(fs[dst := fs[src]] - {src})
    else Move(fs, src, dst)
  }

  /**
    After a successful `shutil.move` the source's node sits at its target,
    the source path is gone unless it was its own destination, a directory
    that received it is still there, and every entry outside the source's
    and the target's subtrees is unchanged.
   */
  lemma ShutilMovePlaced(fs: FileSystem, src: Path, dst: Path)
    requires ShutilMove(fs, src, dst).Some?
    ensures var r := ShutilMove(fs, src, dst).value;
      var t := MoveTarget(fs, src, dst);
      && t in r && r[t] == fs[src]
      && (src != dst ==> src !in r)
      && (t != dst ==> dst in r && r[dst] == Dir)
      && (forall p :: p in fs && !Under(p, src) && !Under(p, t) ==> p in r && r[p] == fs[p])
  {
    var t := MoveTarget(fs, src, dst);
    if src != dst && (t != dst || !(src in fs && fs[src].File? && dst in fs && fs[dst].File?)) {
      assert ShutilMove(fs, src, dst) == Move(fs, src, t);
      MovePlaced(fs, src, t);
      MoveOutside(fs, src, t);
      if t != dst {
        assert Under(t, dst) && !Under(dst, src) && !Under(dst, t);
      }
    }
  }

  /** `shutil.move` keeps a filesystem well formed. */
  lemma ShutilMoveWellFormed(fs: FileSystem, src: Path, dst: Path)
    requires WellFormed(fs)
    requires ShutilMove(fs, src, dst).Some?
    ensures WellFormed(ShutilMove(fs, src, dst).value)
  {
    var t := MoveTarget(fs, src, dst);
    if src != dst {
      if t == dst && src in fs && fs[src].File? && dst in fs && fs[dst].File? {
        var r := ShutilMove(fs, src, dst).value;
        forall p | p in r ensures ParentIsDir(r, p) {
          assert ParentIsDir(fs, p);
        }
      } else {
        MoveWellFormed(fs, src, t);
      }
    }
  }
}

=== FILE: install.dfy ===
/**
  The Installer Orchestration. After the arguments are read, the install
  root is created and entered, the manifest for the branch is looked up, and
  four batches run in order over the manifest's entries: download all,
  extract all, rename all, link all. The first failure ends the run; entry i
  of each batch works on what entry i of the previous batch produced.
 */
module Install {
  import opened Wrappers
  import opened Strings
  import opened Errors
  import opened FileSys
  import opened Archives
  import Args
  import opened Manifest
  import Resolver
  import Linker

  /** The test application's directory, which every other library is linked into. */
  const TestApp: string := "django-testapp"

  /** The install root relative to the starting directory. */
  function Root(dir: string): Path {
    At([], dir)
  }

  /**
    `create_install_dir`: make the directory and enter it. Making it fails,
    with the `mkdir` error, when anything already exists there or its parent
    is not a directory; entering a directory just made cannot fail.
   */
  function CreateInstallDir(fs: FileSystem, dir: string): (e: Effect<()>)
    ensures e.out.Success? <==> Root(dir) !in fs && ParentIsDir(fs, Root(dir))
    ensures e.out.Success? ==> e.fs.Keys == fs.Keys + {Root(dir)} && e.fs[Root(dir)] == Dir
    ensures e.out.Success? ==> forall q :: q in fs ==> e.fs[q] == fs[q]
    ensures e.out.Failure? ==> e == Effect(fs, Failure(Fatal(Mkdir(dir))))
  {
    match MkDir(fs, Root(dir))
    case Some(made) => Effect(made, Success(()))
    case None => Effect(fs, Failure(Fatal(Mkdir(dir))))
  }

  /**
    `clean`: delete the directory and everything in it, ignoring every
    error. Only a real directory can be deleted that way; a regular file or
    a symbolic link at that name, or nothing at all, is left as it is. The
    `cleaning` error is never raised, because errors are ignored.
   */
  function Clean(fs: FileSystem, dir: string): (r: FileSystem)
    ensures Root(dir) in fs && fs[Root(dir)].Dir? ==> forall q :: q in r <==> q in fs && !Under(q, Root(dir))
    ensures !(Root(dir) in fs && fs[Root(dir)].Dir?) ==> r == fs
    ensures forall q :: q in r ==> q in fs && r[q] == fs[q]
  {
    var p := Root(dir);
    if p in fs && fs[p].Dir? then RemoveTree(fs, p) else fs
  }

  /** Cleaning twice is cleaning once. */
  lemma CleanIdempotent(fs: FileSystem, dir: string)
    ensures Clean(Clean(fs, dir), dir) == Clean(fs, dir)
  {
    var p := Root(dir);
    if p in fs && fs[p].Dir? {
      assert Under(p, p);
      assert p !in Clean(fs, dir);
    }
  }

  /** Cleaning keeps the filesystem well formed. */
  lemma CleanWellFormed(fs: FileSystem, dir: string)
    requires WellFormed(fs)
    ensures WellFormed(Clean(fs, dir))
  {
    var p := Root(dir);
    if p in fs && fs[p].Dir? {
      RemoveTreeWellFormed(fs, p);
    }
  }

  /**
    After `--clean` a fresh install can create its root, unless something
    other than a directory was in the way: that is left alone by cleaning,
    so creating the root fails with the `mkdir` error.
   */
  lemma CleanThenCreate(fs: FileSystem, dir: string)
    requires WellFormed(fs)
    requires Linker.Ordinary(dir)
    ensures Root(dir) !in fs || fs[Root(dir)].Dir? ==> CreateInstallDir(Clean(fs, dir), dir).out.Success?
    ensures Root(dir) in fs && !fs[Root(dir)].Dir? ==>
      CreateInstallDir(Clean(fs, dir), dir) == Effect(fs, Failure(Fatal(Mkdir(dir))))
  {
    AtPlainName([], dir);
    var p := Root(dir);
    assert p == [dir];
    if p in fs && fs[p].Dir? {
      assert Under(p, p);
    }
  }

  /** What happened, step by step: only steps that completed are recorded. */
  datatype Event =
    | Fetched(url: string)
    | Unpacked(fname: string)
    | Renamed(key: string)
    | Linked(target: string, lnName: string)

  /** The state after a batch, its result, and the steps of it that completed. */
  datatype Staged<T> = Staged(fs: FileSystem, out: Result<T, Failure>, log: seq<Event>)

  /**
    Download every entry's URL in order, collecting the local file names.
    Entry i's file name is always the one derived from entry i's URL.
   */
  function DownloadAll(fs: FileSystem, cwd: Path, libs: seq<LibEntry>, net: Net): (s: Staged<seq<string>>)
    ensures |s.log| <= |libs|
    ensures forall i :: 0 <= i < |s.log| ==> s.log[i] == Fetched(libs[i].url)
    ensures s.out.Success? <==> |s.log| == |libs|
    ensures s.out.Success? ==> |s.out.value| == |libs|
    decreases |libs|
  {
    if |libs| == 0 then Staged(fs, Success([]), [])
    else
      var d := Download(fs, cwd, libs[0].url, net);
      if d.out.Failure? then Staged(d.fs, Failure(d.out.error), [])
      else
        var rest := DownloadAll(d.fs, cwd, libs[1..], net);
        var out := if rest.out.Success? then Success([d.out.value] + rest.out.value) else Failure(rest.out.error);
        Staged(rest.fs, out, [Fetched(libs[0].url)] + rest.log)
  }

  /** A download batch that completes names file i after field 4 of URL i. */
  lemma {:induction false} DownloadAllNames(fs: FileSystem, cwd: Path, libs: seq<LibEntry>, net: Net)
    ensures var s := DownloadAll(fs, cwd, libs, net);
      s.out.Success? ==> forall i :: 0 <= i < |libs| ==> ArchiveName(libs[i].url) == Some(s.out.value[i])
    decreases |libs|
  {
    var s := DownloadAll(fs, cwd, libs, net);
    if |libs| > 0 && s.out.Success? {
      var d := Download(fs, cwd, libs[0].url, net);
      var rest := DownloadAll(d.fs, cwd, libs[1..], net);
      DownloadAllNames(d.fs, cwd, libs[1..], net);
      assert s.out.value == [d.out.value] + rest.out.value;
      forall i | 1 <= i < |libs| ensures ArchiveName(libs[i].url) == Some(s.out.value[i]) {
        assert libs[1..][i - 1] == libs[i];
      }
    }
  }

  /**
    A download batch that fails stops at the entry it could not fetch: a URL
    without a field 4 crashes, any other failure is reported as `fileopen`,
    `urlopen`, `urlread` or `filewrite` for that entry.
   */
  lemma {:induction false} DownloadAllFailure(fs: FileSystem, cwd: Path, libs: seq<LibEntry>, net: Net)
    ensures var s := DownloadAll(fs, cwd, libs, net);
      s.out.Failure? ==> var url := libs[|s.log|].url;
        && (ArchiveName(url).None? ==> s.out.error.Crash?)
        && (ArchiveName(url).Some? ==> s.out.error.Fatal? && DownloadError(s.out.error.error, url))
    decreases |libs|
  {
    if |libs| > 0 {
      var d := Download(fs, cwd, libs[0].url, net);
      if d.out.Success? {
        DownloadAllFailure(d.fs, cwd, libs[1..], net);
      } else {
        DownloadFailure(fs, cwd, libs[0].url, net);
      }
    }
  }

  /**
    One batch of the installer: `step` is applied to each item in turn, and
    the first failure ends the batch (the installer exits there). The log
    records `event` of each item whose step completed.
   */
  function Batch<X>(fs: FileSystem, items: seq<X>, step: (FileSystem, X) -> Effect<()>, event: X -> Event): (s: Staged<()>)
    ensures |s.log| <= |items|
    ensures forall i :: 0 <= i < |s.log| ==> s.log[i] == event(items[i])
    ensures s.out.Success? <==> |s.log| == |items|
    decreases |items|
  {
    if |items| == 0 then Staged(fs, Success(()), [])
    else
      var e := step(fs, items[0]);
      if e.out.Failure? then Staged(e.fs, e.out, [])
      else
        var rest := Batch(e.fs, items[1..], step, event);
        Staged(rest.fs, rest.out, [event(items[0])] + rest.log)
  }

  /**
    A batch that fails ends with the failure of its step on the first item
    not logged, taken in the state the logged steps left behind (the batch
    of just those items), and in the state that failing step leaves.
   */
  lemma {:induction false} BatchFailure<X>(fs: FileSystem, items: seq<X>, step: (FileSystem, X) -> Effect<()>, event: X -> Event)
    ensures var s := Batch(fs, items, step, event);
      s.out.Failure? ==>
        var before := Batch(fs, items[..|s.log|], step, event);
        && before.out.Success?
        && step(before.fs, items[|s.log|]).out == s.out
        && step(before.fs, items[|s.log|]).fs == s.fs
    decreases |items|
  {
    var s := Batch(fs, items, step, event);
    if |items| > 0 && s.out.Failure? {
      var e := step(fs, items[0]);
      if e.out.Failure? {
        assert items[..|s.log|] == [];
      } else {
        var rest := Batch(e.fs, items[1..], step, event);
        BatchFailure(e.fs, items[1..], step, event);
        var k := |rest.log|;
        assert items[1..][k] == items[|s.log|];
        var prefix := items[..|s.log|];
        assert prefix[0] == items[0] && prefix[1..] == items[1..][..k];
      }
    }
  }

  /** Extracting one archive inside `cwd`. */
  function ExtractStep(cwd: Path): (FileSystem, string) -> Effect<()> {
    (g, fname) => Extract(g, cwd, fname)
  }

  const OnUnpacked: string -> Event := fname => Unpacked(fname)

  /** Extract every archive in order, deleting each afterwards. */
  function ExtractAll(fs: FileSystem, cwd: Path, fnames: seq<string>): (s: Staged<()>)
    ensures |s.log| <= |fnames|
    ensures forall i :: 0 <= i < |s.log| ==> s.log[i] == Unpacked(fnames[i])
    ensures s.out.Success? <==> |s.log| == |fnames|
  {
    Batch(fs, fnames, ExtractStep(cwd), OnUnpacked)
  }

  /** An extraction batch that fails reports `untar` for the file it stopped at. */
  lemma ExtractAllFailure(fs: FileSystem, cwd: Path, fnames: seq<string>)
    ensures var s := ExtractAll(fs, cwd, fnames);
      s.out.Failure? ==> s.out == Failure(Fatal(Untar(fnames[|s.log|])))
  {
    var s := ExtractAll(fs, cwd, fnames);
    BatchFailure(fs, fnames, ExtractStep(cwd), OnUnpacked);
    if s.out.Failure? {
      var g := Batch(fs, fnames[..|s.log|], ExtractStep(cwd), OnUnpacked).fs;
      assert Extract(g, cwd, fnames[|s.log|]).out == s.out;
    }
  }

  /** Renaming the directory of one key, listing `cwd` afresh. */
  function RenameStep(cwd: Path, lister: (FileSystem, Path) -> seq<string>): (FileSystem, string) -> Effect<()> {
    (g, key) => Resolver.MoveDir(g, cwd, lister(g, cwd), key)
  }

  const OnRenamed: string -> Event := key => Renamed(key)

  /** Rename each key's extracted directory, listing the working directory afresh each time. */
  function RenameAll(fs: FileSystem, cwd: Path, keys: seq<string>, lister: (FileSystem, Path) -> seq<string>): (s: Staged<()>)
    ensures |s.log| <= |keys|
    ensures forall i :: 0 <= i < |s.log| ==> s.log[i] == Renamed(keys[i])
    ensures s.out.Success? <==> |s.log| == |keys|
  {
    Batch(fs, keys, RenameStep(cwd, lister), OnRenamed)
  }

  /**
    A rename batch that fails reports the key it stopped at: no directory
    was found for it, its name was taken, or the move itself failed.
   */
  lemma RenameAllFailure(fs: FileSystem, cwd: Path, keys: seq<string>, lister: (FileSystem, Path) -> seq<string>)
    ensures var s := RenameAll(fs, cwd, keys, lister);
      s.out.Failure? ==>
        && s.out.error.Fatal?
        && (s.out.error.error == NotFound(keys[|s.log|]) || s.out.error.error == PathExists(keys[|s.log|])
            || s.out.error.error.MoveDir?)
  {
    var s := RenameAll(fs, cwd, keys, lister);
    BatchFailure(fs, keys, RenameStep(cwd, lister), OnRenamed);
    if s.out.Failure? {
      var g := Batch(fs, keys[..|s.log|], RenameStep(cwd, lister), OnRenamed).fs;
      var m := Resolver.MoveDir(g, cwd, lister(g, cwd), keys[|s.log|]);
      assert m.out == s.out;
    }
  }

  /**
    While no name among `done` and `keys` holds the infix of a key, a rename
    never takes the directory of a name already in place: every name of
    `done`, and every key renamed by the batch, is an entry of `cwd` when
    the batch stops.
   */
  lemma {:induction false} RenamedKeysStay(fs: FileSystem, cwd: Path, keys: seq<string>,
                                            lister: (FileSystem, Path) -> seq<string>, done: seq<string>)
    requires NoSep(keys) && Resolver.InfixFree(done + keys, keys)
    requires forall i :: 0 <= i < |done| ==> cwd + [done[i]] in fs
    ensures var s := RenameAll(fs, cwd, keys, lister);
      forall i :: 0 <= i < |done| + |s.log| ==> cwd + [(done + keys)[i]] in s.fs
    decreases |keys|
  {
    var s := RenameAll(fs, cwd, keys, lister);
    if |keys| > 0 {
      var m := Resolver.MoveDir(fs, cwd, lister(fs, cwd), keys[0]);
      if m.out.Success? {
        forall i | 0 <= i < |done| ensures cwd + [done[i]] in m.fs {
          assert (done + keys)[i] == done[i];
          Resolver.MoveDirKeeps(fs, cwd, lister(fs, cwd), keys[0], done[i]);
        }
        Resolver.MoveDirPlacesKey(fs, cwd, lister(fs, cwd), keys[0]);
        AtPlainName(cwd, keys[0]);
        var done' := done + [keys[0]];
        HeadMoved(done, keys);
        assert Resolver.InfixFree(done' + keys[1..], keys[1..]) by {
          forall i, j | 0 <= i < |done' + keys[1..]| && 0 <= j < |keys[1..]|
            ensures !Contains((done' + keys[1..])[i], Resolver.Infix(keys[1..][j]))
          {
            assert keys[1..][j] == keys[j + 1];
          }
        }
        RenamedKeysStay(m.fs, cwd, keys[1..], lister, done');
        var rest := RenameAll(m.fs, cwd, keys[1..], lister);
        assert RenameStep(cwd, lister)(fs, keys[0]) == m;
        assert s.fs == rest.fs && |s.log| == 1 + |rest.log|;
      }
    }
  }

  lemma HeadMoved<T>(a: seq<T>, b: seq<T>)
    requires |b| > 0
    ensures (a + [b[0]]) + b[1..] == a + b
  {
    assert [b[0]] + b[1..] == b;
  }

  /** A rename batch whose keys hold no key's infix leaves every key it renamed in place. */
  lemma RenamedKeysPresent(fs: FileSystem, cwd: Path, keys: seq<string>, lister: (FileSystem, Path) -> seq<string>)
    requires NoSep(keys) && Resolver.InfixFree(keys, keys)
    ensures var s := RenameAll(fs, cwd, keys, lister);
      forall i :: 0 <= i < |s.log| ==> cwd + [keys[i]] in s.fs
  {
    assert [] + keys == keys;
    RenamedKeysStay(fs, cwd, keys, lister, []);
  }

  /** Linking one (target, directory) pair into `lnRoot`. */
  function LinkStep(cwd: Path, lnRoot: string, symlinks: bool): (FileSystem, (string, string)) -> Effect<()> {
    (g, t: (string, string)) => Linker.Symlink(g, cwd, t.0, t.1, lnRoot, symlinks)
  }

  const OnLinked: ((string, string)) -> Event := (t: (string, string)) => Linked(t.0, t.1)

  /** The targets paired with their directories, by position. */
  function Pairs(targets: seq<string>, dirs: seq<string>): (ps: seq<(string, string)>)
    requires |targets| == |dirs|
    ensures |ps| == |targets|
    ensures forall i :: 0 <= i < |ps| ==> ps[i] == (targets[i], dirs[i])
  {
    seq(|targets|, i requires 0 <= i < |targets| => (targets[i], dirs[i]))
  }

  /** Link entry i's directory `dirs[i]` of `targets[i]` into `lnRoot`, in order. */
  function LinkAll(fs: FileSystem, cwd: Path, targets: seq<string>, dirs: seq<string>, lnRoot: string, symlinks: bool): (s: Staged<()>)
    requires |targets| == |dirs|
    ensures |s.log| <= |targets|
    ensures forall i :: 0 <= i < |s.log| ==> s.log[i] == Linked(targets[i], dirs[i])
    ensures s.out.Success? <==> |s.log| == |targets|
  {
    Batch(fs, Pairs(targets, dirs), LinkStep(cwd, lnRoot, symlinks), OnLinked)
  }

  /** Only `movedir`, naming both paths, can stop a link batch. */
  lemma LinkAllFailure(fs: FileSystem, cwd: Path, targets: seq<string>, dirs: seq<string>, lnRoot: string, symlinks: bool)
    requires |targets| == |dirs|
    ensures var s := LinkAll(fs, cwd, targets, dirs, lnRoot, symlinks);
      s.out.Failure? ==>
        var plan := Linker.Plan(targets[|s.log|], dirs[|s.log|], lnRoot);
        s.out == Failure(Fatal(Error.MoveDir(plan.source + " to " + plan.link)))
  {
    var s := LinkAll(fs, cwd, targets, dirs, lnRoot, symlinks);
    var ps := Pairs(targets, dirs);
    BatchFailure(fs, ps, LinkStep(cwd, lnRoot, symlinks), OnLinked);
    if s.out.Failure? {
      var k := |s.log|;
      var g := Batch(fs, ps[..k], LinkStep(cwd, lnRoot, symlinks), OnLinked).fs;
      var l := Linker.Symlink(g, cwd, targets[k], dirs[k], lnRoot, symlinks);
      assert l.out == s.out;
    }
  }

  /** Which manifest a run uses: the one as written, or the corrected one. */
  datatype Table = AsWritten | Intended

  /**
    What the run depends on besides its arguments and the filesystem: what
    each URL delivers, whether symbolic links can be made, and what listing
    a directory returns (its order is up to the platform).
   */
  datatype Env = Env(net: Net, symlinks: bool, lister: (FileSystem, Path) -> seq<string>)

  /** The final filesystem, how the run ended, and the steps that completed. */
  datatype Outcome = Outcome(fs: FileSystem, out: Result<(), Failure>, log: seq<Event>)

  /** The directory keys: each file name without its last seven characters. */
  function Stems(fnames: seq<string>): (keys: seq<string>)
    ensures |keys| == |fnames|
    ensures forall i :: 0 <= i < |fnames| ==> keys[i] == Stem(fnames[i])
  {
    seq(|fnames|, i requires 0 <= i < |fnames| => Stem(fnames[i]))
  }

  /** The in-archive directories of the manifest's entries, in order. */
  function Dirs(libs: seq<LibEntry>): (dirs: seq<string>)
    ensures |dirs| == |libs|
    ensures forall i :: 0 <= i < |libs| ==> dirs[i] == libs[i].dir
  {
    seq(|libs|, i requires 0 <= i < |libs| => libs[i].dir)
  }

  /** The four batches over the manifest `libs`, run inside `cwd`. */
  function Stages(fs: FileSystem, cwd: Path, libs: seq<LibEntry>, env: Env): Outcome {
    var d := DownloadAll(fs, cwd, libs, env.net);
    if d.out.Failure? then Outcome(d.fs, Failure(d.out.error), d.log)
    else After(d.log, Unpacking(d.fs, cwd, d.out.value, Dirs(libs), env))
  }

  /** The errors the four batches report. */
  predicate BatchError(err: Error) {
    || err.FileOpen? || err.UrlOpen? || err.UrlRead? || err.FileWrite?
    || err.Untar? || err.NotFound? || err.PathExists? || err.MoveDir?
  }

  /**
    The batches fail only with their own errors: a reported error is one a
    download, an extraction, a rename or a link reports, and an uncaught
    exception means some URL of the manifest has no field 4.
   */
  lemma StagesFailure(fs: FileSystem, cwd: Path, libs: seq<LibEntry>, env: Env)
    ensures var o := Stages(fs, cwd, libs, env);
      && (o.out.Failure? && o.out.error.Fatal? ==> BatchError(o.out.error.error))
      && (o.out.Failure? && o.out.error.Crash? ==> exists i :: 0 <= i < |libs| && ArchiveName(libs[i].url).None?)
  {
    var d := DownloadAll(fs, cwd, libs, env.net);
    DownloadAllFailure(fs, cwd, libs, env.net);
    if d.out.Success? {
      var fnames := d.out.value;
      var x := ExtractAll(d.fs, cwd, fnames);
      ExtractAllFailure(d.fs, cwd, fnames);
      if x.out.Success? {
        var keys := Stems(fnames);
        var r := RenameAll(x.fs, cwd, keys, env.lister);
        RenameAllFailure(x.fs, cwd, keys, env.lister);
        if r.out.Success? {
          LinkAllFailure(r.fs, cwd, keys, Dirs(libs), TestApp, env.symlinks);
        }
      }
    }
  }

  /** An outcome preceded by the steps that led up to it. */
  function After(log: seq<Event>, o: Outcome): Outcome {
    o.(log := log + o.log)
  }

  /** Extract all, then rename and link by the keys the file names give. */
  function Unpacking(fs: FileSystem, cwd: Path, fnames: seq<string>, dirs: seq<string>, env: Env): Outcome
    requires |fnames| == |dirs|
  {
    var x := ExtractAll(fs, cwd, fnames);
    if x.out.Failure? then Outcome(x.fs, x.out, x.log)
    else After(x.log, Renaming(x.fs, cwd, Stems(fnames), dirs, env))
  }

  /** Rename all, then link all, entry i's key with entry i's directory. */
  function Renaming(fs: FileSystem, cwd: Path, keys: seq<string>, dirs: seq<string>, env: Env): Outcome
    requires |keys| == |dirs|
  {
    var r := RenameAll(fs, cwd, keys, env.lister);
    if r.out.Failure? then Outcome(r.fs, r.out, r.log)
    else
      var l := LinkAll(r.fs, cwd, keys, dirs, TestApp, env.symlinks);
      Outcome(l.fs, l.out, r.log + l.log)
  }

  /**
    The whole program. A bad argument ends it before anything is touched;
    `--clean` deletes the install root and ends it normally. Otherwise the
    install root is created first and only then is the manifest looked up.
   */
  function RunWith(argv: seq<string>, fs: FileSystem, env: Env, table: Table): Outcome
    requires |argv| >= 1
  {
    match Args.Select(argv)
    case Failure(err) => Outcome(fs, Failure(Fatal(err)), [])
    case Success(sel) =>
      if sel.Clean? then Outcome(Clean(fs, Args.InstallDir), Success(()), [])
      else Installing(fs, sel.branch, env, table)
  }

  /** Create the install root, look up the manifest of `branch`, and run the batches. */
  function Installing(fs: FileSystem, branch: string, env: Env, table: Table): Outcome {
    var made := CreateInstallDir(fs, Args.InstallDir);
    if made.out.Failure? then Outcome(made.fs, made.out, [])
    else
      var libs := if table == AsWritten then LibUrls(branch) else IntendedLibUrls(branch);
      match libs
      case None => Outcome(made.fs, Failure(Crash(IndexOutOfRange)), [])
      case Some(entries) => Stages(made.fs, Root(Args.InstallDir), entries, env)
  }

  /** The program as it is written. */
  function RunAsWritten(argv: seq<string>, fs: FileSystem, env: Env): Outcome
    requires |argv| >= 1
  {
    RunWith(argv, fs, env, AsWritten)
  }

  /** The program with the branch aliases given their URL list. */
  function Run(argv: seq<string>, fs: FileSystem, env: Env): Outcome
    requires |argv| >= 1
  {
    RunWith(argv, fs, env, Intended)
  }

  /** Every URL of the manifest has a field 4. */
  predicate Named(libs: seq<LibEntry>) {
    forall i :: 0 <= i < |libs| ==> |Split(libs[i].url, Sep)| >= 5
  }

  /** Field 4 of a URL: the name its archive, and then its directory, is given. */
  function Key(url: string): string
    requires |Split(url, Sep)| >= 5
  {
    Split(url, Sep)[4]
  }

  /** The field-4 keys of the manifest's URLs, in order. */
  function Keys(libs: seq<LibEntry>): (keys: seq<string>)
    requires Named(libs)
    ensures |keys| == |libs|
  {
    seq(|libs|, i requires 0 <= i < |libs| => Key(libs[i].url))
  }

  /** The completed download batch: every URL, in order. */
  function Fetches(libs: seq<LibEntry>): seq<Event> {
    seq(|libs|, i requires 0 <= i < |libs| => Fetched(libs[i].url))
  }

  /** The completed extraction batch: every `<key>.tar.gz`, in order. */
  function Unpacks(keys: seq<string>): seq<Event> {
    seq(|keys|, i requires 0 <= i < |keys| => Unpacked(keys[i] + TarGz))
  }

  /** The completed rename batch: every key, in order. */
  function Renames(keys: seq<string>): seq<Event> {
    seq(|keys|, i requires 0 <= i < |keys| => Renamed(keys[i]))
  }

  /** The completed link batch: every key with its entry's directory, in order. */
  function Links(keys: seq<string>, dirs: seq<string>): seq<Event>
    requires |keys| == |dirs|
  {
    seq(|keys|, i requires 0 <= i < |keys| => Linked(keys[i], dirs[i]))
  }

  /**
    The steps of a complete run, written from the URLs directly: every URL
    fetched, then every `<key>.tar.gz` unpacked, then every key renamed, then
    every key linked with its entry's directory, each batch in manifest order.
   */
  function ExpectedLog(libs: seq<LibEntry>): seq<Event>
    requires Named(libs)
  {
    var keys := Keys(libs);
    Fetches(libs) + (Unpacks(keys) + (Renames(keys) + Links(keys, Dirs(libs))))
  }

  lemma PrefixExtended<T>(b: seq<T>, c: seq<T>, d: seq<T>)
    requires b <= c
    ensures b <= c + d
  {
    assert (c + d)[..|b|] == c[..|b|];
  }

  lemma PrefixAfter<T>(a: seq<T>, b: seq<T>, c: seq<T>)
    requires b <= c
    ensures a + b <= a + c
  {
    assert (a + c)[..|a + b|] == a + c[..|b|];
  }

  /** The download batch follows the plan, and names file i after key i. */
  lemma DownloadsAsPlanned(fs: FileSystem, cwd: Path, libs: seq<LibEntry>, net: Net)
    requires Named(libs)
    ensures var d := DownloadAll(fs, cwd, libs, net);
      && d.log <= Fetches(libs)
      && (d.out.Success? ==> d.log == Fetches(libs) && Stems(d.out.value) == Keys(libs))
      && (d.out.Success? ==> forall i :: 0 <= i < |libs| ==> d.out.value[i] == Keys(libs)[i] + TarGz)
  {
    var d := DownloadAll(fs, cwd, libs, net);
    DownloadAllNames(fs, cwd, libs, net);
    assert d.log == Fetches(libs)[..|d.log|];
    if d.out.Success? {
      var fnames := d.out.value;
      forall i | 0 <= i < |libs|
        ensures fnames[i] == Keys(libs)[i] + TarGz && Stems(fnames)[i] == Keys(libs)[i]
      {
        assert ArchiveName(libs[i].url) == Some(fnames[i]);
      }
    }
  }

  lemma ExtractsAsPlanned(fs: FileSystem, cwd: Path, fnames: seq<string>, keys: seq<string>)
    requires |fnames| == |keys|
    requires forall i :: 0 <= i < |keys| ==> fnames[i] == keys[i] + TarGz
    ensures var x := ExtractAll(fs, cwd, fnames);
      x.log <= Unpacks(keys) && (x.out.Success? ==> x.log == Unpacks(keys))
  {
    var x := ExtractAll(fs, cwd, fnames);
    assert x.log == Unpacks(keys)[..|x.log|];
  }

  lemma RenamesAsPlanned(fs: FileSystem, cwd: Path, keys: seq<string>, lister: (FileSystem, Path) -> seq<string>)
    ensures var r := RenameAll(fs, cwd, keys, lister);
      r.log <= Renames(keys) && (r.out.Success? ==> r.log == Renames(keys))
  {
    var r := RenameAll(fs, cwd, keys, lister);
    assert r.log == Renames(keys)[..|r.log|];
  }

  lemma LinksAsPlanned(fs: FileSystem, cwd: Path, keys: seq<string>, dirs: seq<string>, lnRoot: string, symlinks: bool)
    requires |keys| == |dirs|
    ensures var l := LinkAll(fs, cwd, keys, dirs, lnRoot, symlinks);
      l.log <= Links(keys, dirs) && (l.out.Success? ==> l.log == Links(keys, dirs))
  {
    var l := LinkAll(fs, cwd, keys, dirs, lnRoot, symlinks);
    assert l.log == Links(keys, dirs)[..|l.log|];
  }

  lemma RenamingAsPlanned(fs: FileSystem, cwd: Path, keys: seq<string>, dirs: seq<string>, env: Env)
    requires |keys| == |dirs|
    ensures var o := Renaming(fs, cwd, keys, dirs, env);
      && o.log <= Renames(keys) + Links(keys, dirs)
      && (o.out.Success? <==> o.log == Renames(keys) + Links(keys, dirs))
  {
    var r := RenameAll(fs, cwd, keys, env.lister);
    RenamesAsPlanned(fs, cwd, keys, env.lister);
    if r.out.Failure? {
      PrefixExtended(r.log, Renames(keys), Links(keys, dirs));
    } else {
      var l := LinkAll(r.fs, cwd, keys, dirs, TestApp, env.symlinks);
      LinksAsPlanned(r.fs, cwd, keys, dirs, TestApp, env.symlinks);
      PrefixAfter(r.log, l.log, Links(keys, dirs));
    }
  }

  lemma UnpackingAsPlanned(fs: FileSystem, cwd: Path, fnames: seq<string>, keys: seq<string>, dirs: seq<string>, env: Env)
    requires |fnames| == |keys| == |dirs|
    requires forall i :: 0 <= i < |keys| ==> fnames[i] == keys[i] + TarGz
    requires Stems(fnames) == keys
    ensures var o := Unpacking(fs, cwd, fnames, dirs, env);
      var plan := Unpacks(keys) + (Renames(keys) + Links(keys, dirs));
      o.log <= plan && (o.out.Success? <==> o.log == plan)
  {
    var x := ExtractAll(fs, cwd, fnames);
    ExtractsAsPlanned(fs, cwd, fnames, keys);
    if x.out.Failure? {
      PrefixExtended(x.log, Unpacks(keys), Renames(keys) + Links(keys, dirs));
    } else {
      RenamingAsPlanned(x.fs, cwd, keys, dirs, env);
      PrefixAfter(x.log, Renaming(x.fs, cwd, keys, dirs, env).log, Renames(keys) + Links(keys, dirs));
    }
  }

  /**
    The batches keep to the plan: whatever happens, the completed steps are
    the first steps of `ExpectedLog`, and the run succeeds exactly when all
    of them completed. So every URL is fetched before anything is unpacked,
    and so on, and step i of every batch belongs to manifest entry i.
   */
  lemma StagesFollowPlan(fs: FileSystem, cwd: Path, libs: seq<LibEntry>, env: Env)
    requires Named(libs)
    ensures Stages(fs, cwd, libs, env).log <= ExpectedLog(libs)
    ensures Stages(fs, cwd, libs, env).out.Success? <==> Stages(fs, cwd, libs, env).log == ExpectedLog(libs)
  {
    var keys := Keys(libs);
    var rest := Unpacks(keys) + (Renames(keys) + Links(keys, Dirs(libs)));
    var d := DownloadAll(fs, cwd, libs, env.net);
    DownloadsAsPlanned(fs, cwd, libs, env.net);
    if d.out.Failure? {
      PrefixExtended(d.log, Fetches(libs), rest);
    } else {
      UnpackingAsPlanned(d.fs, cwd, d.out.value, keys, Dirs(libs), env);
      PrefixAfter(d.log, Unpacking(d.fs, cwd, d.out.value, Dirs(libs), env).log, rest);
    }
  }

  /**
    For each branch of the manifest, the keys are the repository names of its
    URLs, the directories are the shared directory list, and only the test
    application's entry (4) has the key that is skipped when linking.
   */
  lemma ManifestKeys(branch: string)
    requires branch in ManifestBranches
    ensures Named(LibUrls(branch).value)
    ensures forall i :: 0 <= i < 8 ==> Keys(LibUrls(branch).value)[i] == Remotes(branch)[i].repo
    ensures Dirs(LibUrls(branch).value) == LibDirs
  {
    var libs := LibUrls(branch).value;
    RemotesOf(branch);
    forall i | 0 <= i < 8 ensures |Split(libs[i].url, Sep)| >= 5 && Key(libs[i].url) == Remotes(branch)[i].repo {
      ManifestKeyAt(branch, i);
    }
  }

  /** Linking skips exactly one entry of every branch: the test application's (entry 4). */
  lemma LinkSkipsOnlyTestApp(branch: string)
    requires branch in ManifestBranches
    ensures Named(LibUrls(branch).value)
    ensures forall i :: 0 <= i < 8 ==> (Keys(LibUrls(branch).value)[i] == TestApp <==> i == 4)
  {
    ManifestKeys(branch);
    OnlyTestappRepo(branch);
  }

  /** Field 4 of entry i's URL is the repository of the branch's i-th remote. */
  lemma ManifestKeyAt(branch: string, i: nat)
    requires branch in ManifestBranches && i < 8
    ensures |Split(LibUrls(branch).value[i].url, Sep)| >= 5
    ensures Key(LibUrls(branch).value[i].url) == Remotes(branch)[i].repo
  {
    RemotesOf(branch);
    BranchWellNamed(branch);
    RemoteFields(Remotes(branch)[i]);
  }

  /** Of a branch's remotes, only entry 4 is the test application's repository. */
  lemma OnlyTestappRepo(branch: string)
    requires branch in ManifestBranches
    ensures |Remotes(branch)| == 8
    ensures forall i :: 0 <= i < 8 ==> (Remotes(branch)[i].repo == TestApp <==> i == 4)
  {
    var names := Repos(Remotes(branch));
    RemotesOf(branch);
    BranchRepos(branch);
    ReposDistinct();
    assert names[4] == TestApp;
    forall i | 0 <= i < 8 && i != 4 ensures names[i] != TestApp {
      if i < 4 {
        assert names[i] != names[4];
      } else {
        assert names[4] != names[i];
      }
    }
  }

  /** Every repository name of the two tables. */
  const AllRepos: seq<string> := ["django-autoload", "djangotoolbox", "djangoappengine", "django-dbindexer",
    "django-testapp", "nonrel-search", "django-permission-backend-nonrel", "django-nonrel", "django"]

  /**
    `dj` occurs in `n` only at its start, and `no` not within the first
    `|n| - 14` places after it. This is what keeps `n` free of every
    repository's `-<name>-` infix: that infix has `dj` at its places 1 and 2,
    except for `nonrel-search`, whose `no` there would need at least fourteen
    characters of `n` from its place onwards. Stating it over character
    pairs at fixed offsets, rather than over the infixes themselves, keeps
    each check a short scan of one literal name.
   */
  predicate PairsOnlyEarly(n: string) {
    forall k :: 1 <= k < |n| - 1 ==> !(n[k] == 'd' && n[k + 1] == 'j') && (k <= |n| - 14 ==> !(n[k] == 'n' && n[k + 1] == 'o'))
  }

  lemma AllReposPairsOnlyEarly()
    ensures forall i :: 0 <= i < |AllRepos| ==> PairsOnlyEarly(AllRepos[i])
  {
    HeadReposPairsOnlyEarly();
    MidReposPairsOnlyEarly();
    LongRepoPairsOnlyEarly();
    TailReposPairsOnlyEarly();
  }

  /** `PairsOnlyEarly` for the names of `AllRepos`, a few names per lemma. */
  lemma HeadReposPairsOnlyEarly()
    ensures forall i :: 0 <= i < 3 ==> PairsOnlyEarly(AllRepos[i])
  {
  }

  lemma MidReposPairsOnlyEarly()
    ensures forall i :: 3 <= i < 6 ==> PairsOnlyEarly(AllRepos[i])
  {
  }

  lemma LongRepoPairsOnlyEarly()
    ensures PairsOnlyEarly(AllRepos[6])
  {
  }

  lemma TailReposPairsOnlyEarly()
    ensures forall i :: 7 <= i < 9 ==> PairsOnlyEarly(AllRepos[i])
  {
  }

  /**
    A name whose pairs occur only early holds no infix of a repository: the
    infix of every repository has `dj` after its dash, except that of
    `nonrel-search`, which has `no` and is fifteen characters long.
   */
  lemma NoRepoInfix(n: string, key: string)
    requires PairsOnlyEarly(n) && key in AllRepos
    ensures !Contains(n, Resolver.Infix(key))
  {
    var infix := Resolver.Infix(key);
    assert infix[1] == key[0] && infix[2] == key[1];
    PairAbsent(n, infix, 1);
  }

  /**
    No repository name of either table holds the `-<name>-` infix of any of
    them.
   */
  lemma TablesInfixFree()
    ensures Resolver.InfixFree([Autoload.repo] + MasterRepos, [Autoload.repo] + MasterRepos)
    ensures Resolver.InfixFree([Autoload.repo] + DevRepos, [Autoload.repo] + DevRepos)
  {
    AllReposPairsOnlyEarly();
    forall i, j | 0 <= i < |AllRepos| && 0 <= j < |AllRepos|
      ensures !Contains(AllRepos[i], Resolver.Infix(AllRepos[j]))
    {
      NoRepoInfix(AllRepos[i], AllRepos[j]);
    }
    assert [Autoload.repo] + MasterRepos == AllRepos[..8];
    assert [Autoload.repo] + DevRepos == AllRepos[..7] + [AllRepos[8]];
  }

  /**
    For every branch of the manifest, a rename batch that completes leaves
    an entry named after every key in the working directory: no key's
    entry is ever taken as the match of a later key. The entry is whatever
    the matched name held; `move_dir` renames a regular file as readily as a
    directory.
   */
  lemma ManifestRenamesComplete(branch: string, fs: FileSystem, cwd: Path, lister: (FileSystem, Path) -> seq<string>)
    requires branch in ManifestBranches
    ensures Named(LibUrls(branch).value)
    ensures var keys := Keys(LibUrls(branch).value);
      RenameAll(fs, cwd, keys, lister).out.Success? ==> forall i :: 0 <= i < |keys| ==> cwd + [keys[i]] in RenameAll(fs, cwd, keys, lister).fs
  {
    ManifestKeysAreRepos(branch);
    BranchKeysInfixFree(branch);
    RenamedKeysPresent(fs, cwd, Keys(LibUrls(branch).value), lister);
  }

  /** The keys of a branch's manifest are the repositories of its remotes. */
  lemma ManifestKeysAreRepos(branch: string)
    requires branch in ManifestBranches
    ensures Named(LibUrls(branch).value)
    ensures Keys(LibUrls(branch).value) == Repos(Remotes(branch))
  {
    ManifestKeys(branch);
    RemotesOf(branch);
  }

  /** The repositories of a branch have no separator and hold no repository's infix. */
  lemma BranchKeysInfixFree(branch: string)
    requires branch in ManifestBranches
    ensures NoSep(Repos(Remotes(branch)))
    ensures Resolver.InfixFree(Repos(Remotes(branch)), Repos(Remotes(branch)))
  {
    BranchRepos(branch);
    ReposPlain();
    TablesInfixFree();
    var names := [Autoload.repo] + (if branch == "--master" then MasterRepos else DevRepos);
    assert NoSep(names);
  }

  /** The install root is a single name at the top of the starting directory. */
  lemma RootIsTopLevel()
    ensures Root(Args.InstallDir) == [Args.InstallDir]
  {
    AtPlainName([], Args.InstallDir);
  }

  /** Every accepted branch token has a corrected manifest whose URLs all have a field 4. */
  lemma IntendedNamed(branch: string)
    requires branch in Args.BranchTokens
    ensures IntendedLibUrls(branch).Some? && Named(IntendedLibUrls(branch).value)
  {
    var b := if branch == "--dev" || branch == "--develop" then "--dev13" else branch;
    ManifestKeys(b);
  }

  /** A branch run that finds no install root creates it and goes on to the batches. */
  lemma RunReachesStages(argv: seq<string>, fs: FileSystem, env: Env, branch: string)
    requires |argv| >= 1
    requires Args.Select(argv) == Success(Args.Install(branch))
    requires [Args.InstallDir] !in fs
    requires IntendedLibUrls(branch).Some?
    ensures CreateInstallDir(fs, Args.InstallDir).out.Success?
    ensures Run(argv, fs, env) ==
      Stages(CreateInstallDir(fs, Args.InstallDir).fs, [Args.InstallDir], IntendedLibUrls(branch).value, env)
  {
    RootIsTopLevel();
    assert Run(argv, fs, env) == Installing(fs, branch, env, Intended);
    var made := CreateInstallDir(fs, Args.InstallDir);
    assert made.out.Success?;
    var libs := IntendedLibUrls(branch);
    assert (if Intended == AsWritten then LibUrls(branch) else IntendedLibUrls(branch)) == libs;
    assert Installing(fs, branch, env, Intended) == Stages(made.fs, Root(Args.InstallDir), libs.value, env);
  }

  /**
    A run of the corrected program that selects a branch either stops at
    once, because the install root is already there, or creates it and then
    keeps to the plan of that branch's corrected manifest. For the two
    aliases that is the 1.3 development manifest; as written, those crash
    (`DevAliasCrashes`).
   */
  lemma RunFollowsManifest(argv: seq<string>, fs: FileSystem, env: Env, branch: string)
    requires |argv| >= 1
    requires Args.Select(argv) == Success(Args.Install(branch))
    ensures [Args.InstallDir] in fs ==>
      Run(argv, fs, env) == Outcome(fs, Failure(Fatal(Mkdir(Args.InstallDir))), [])
    ensures [Args.InstallDir] !in fs ==>
      && IntendedLibUrls(branch).Some? && Named(IntendedLibUrls(branch).value)
      && Run(argv, fs, env).log <= ExpectedLog(IntendedLibUrls(branch).value)
      && (Run(argv, fs, env).out.Success? <==> Run(argv, fs, env).log == ExpectedLog(IntendedLibUrls(branch).value))
  {
    IntendedNamed(branch);
    RootIsTopLevel();
    if Root(Args.InstallDir) !in fs {
      RunReachesStages(argv, fs, env, branch);
      StagesFollowPlan(CreateInstallDir(fs, Args.InstallDir).fs, Root(Args.InstallDir), IntendedLibUrls(branch).value, env);
    }
  }

  /**
    As written, a run that selects a branch with a URL list either stops at
    once, because the install root is already there, or creates it and then
    keeps to the plan of that branch's manifest.
   */
  lemma RunAsWrittenFollowsManifest(argv: seq<string>, fs: FileSystem, env: Env, branch: string)
    requires |argv| >= 1
    requires Args.Select(argv) == Success(Args.Install(branch))
    requires branch in ManifestBranches
    ensures [Args.InstallDir] in fs ==>
      RunAsWritten(argv, fs, env) == Outcome(fs, Failure(Fatal(Mkdir(Args.InstallDir))), [])
    ensures [Args.InstallDir] !in fs ==>
      && LibUrls(branch).Some? && Named(LibUrls(branch).value)
      && RunAsWritten(argv, fs, env).log <= ExpectedLog(LibUrls(branch).value)
      && (RunAsWritten(argv, fs, env).out.Success? <==> RunAsWritten(argv, fs, env).log == ExpectedLog(LibUrls(branch).value))
  {
    assert |argv| >= 2 ==> argv[1] == branch;
    RunsAgreeOffAliases(argv, fs, env);
    RunFollowsManifest(argv, fs, env, branch);
    assert IntendedLibUrls(branch) == LibUrls(branch);
  }

  /**
    A branch run stops with `mkdir`, untouched, when the root is there
    already. Otherwise it creates the root before looking up the manifest,
    so a branch without a URL list leaves the empty root behind, and the
    batches run inside the root.
   */
  lemma InstallingOutcomes(fs: FileSystem, branch: string, env: Env, table: Table)
    ensures var o := Installing(fs, branch, env, table);
      var libs := if table == AsWritten then LibUrls(branch) else IntendedLibUrls(branch);
      var made := fs[[Args.InstallDir] := Dir];
      && ([Args.InstallDir] in fs ==> o == Outcome(fs, Failure(Fatal(Mkdir(Args.InstallDir))), []))
      && ([Args.InstallDir] !in fs && libs.None? ==> o == Outcome(made, Failure(Crash(IndexOutOfRange)), []))
      && ([Args.InstallDir] !in fs && libs.Some? ==> o == Stages(made, [Args.InstallDir], libs.value, env))
  {
    RootIsTopLevel();
    if [Args.InstallDir] !in fs {
      var e := CreateInstallDir(fs, Args.InstallDir);
      assert e.fs == fs[[Args.InstallDir] := Dir];
    }
  }

  /**
    How a run ends, with either table: a rejected argument ends it
    untouched, `--clean` only cleans, and a branch is installed as
    `InstallingOutcomes` describes. Only `--clean`, or a branch run that
    found no root and created it, changes the filesystem.
   */
  lemma RunWithOutcomes(argv: seq<string>, fs: FileSystem, env: Env, table: Table)
    requires |argv| >= 1
    ensures var o := RunWith(argv, fs, env, table);
      var sel := Args.Select(argv);
      && (sel.Failure? ==> o == Outcome(fs, Failure(Fatal(sel.error)), []))
      && (sel == Success(Args.Clean) ==> o == Outcome(Clean(fs, Args.InstallDir), Success(()), []))
      && (sel.Success? && sel.value.Install? ==> o == Installing(fs, sel.value.branch, env, table))
      && (o.fs != fs ==> sel == Success(Args.Clean) || (sel.Success? && [Args.InstallDir] !in fs))
  {
    var sel := Args.Select(argv);
    if sel.Success? && sel.value.Install? {
      InstallingOutcomes(fs, sel.value.branch, env, table);
    }
  }

  /** An unknown argument is reported (status 128) before anything is touched. */
  lemma RunRejectsUnknown(argv: seq<string>, fs: FileSystem, env: Env)
    requires |argv| >= 2 && argv[1] != Args.CleanToken && argv[1] !in Args.BranchTokens
    ensures Run(argv, fs, env) == Outcome(fs, Failure(Fatal(UnknownArg(argv[1]))), [])
    ensures ExitStatus(Run(argv, fs, env).out) == ReportedExit
  {
  }

  /** `--clean` deletes the install root, whatever follows it, and ends normally. */
  lemma RunCleans(argv: seq<string>, fs: FileSystem, env: Env)
    requires |argv| >= 2 && argv[1] == Args.CleanToken
    ensures Run(argv, fs, env) == Outcome(Clean(fs, Args.InstallDir), Success(()), [])
    ensures ExitStatus(Run(argv, fs, env).out) == 0
  {
  }

  /** The program as written and the corrected one differ only for the two aliases. */
  lemma RunsAgreeOffAliases(argv: seq<string>, fs: FileSystem, env: Env)
    requires |argv| >= 1
    requires |argv| == 1 || argv[1] !in {"--dev", "--develop"}
    ensures Run(argv, fs, env) == RunAsWritten(argv, fs, env)
  {
    var sel := Args.Select(argv);
    if sel.Success? && sel.value.Install? {
      var b := sel.value.branch;
      assert b == (if |argv| == 1 then Args.DefaultBranch else argv[1]);
      assert IntendedLibUrls(b) == LibUrls(b);
      SameManifestSameInstall(fs, b, env);
    }
  }

  /** Where both tables give a branch the same manifest, they install it alike. */
  lemma SameManifestSameInstall(fs: FileSystem, branch: string, env: Env)
    requires IntendedLibUrls(branch) == LibUrls(branch)
    ensures Installing(fs, branch, env, Intended) == Installing(fs, branch, env, AsWritten)
  {
  }

  /**
    As written, `--dev` and `--develop` are accepted, the install root is
    created, and then the manifest lookup raises: the run dies with status 1
    having installed nothing and left an empty install root behind.
   */
  lemma DevAliasCrashes(argv: seq<string>, fs: FileSystem, env: Env)
    requires |argv| >= 2 && (argv[1] == "--dev" || argv[1] == "--develop")
    requires [Args.InstallDir] !in fs
    ensures Args.Select(argv) == Success(Args.Install(argv[1]))
    ensures RunAsWritten(argv, fs, env) ==
      Outcome(fs[[Args.InstallDir] := Dir], Failure(Crash(IndexOutOfRange)), [])
    ensures ExitStatus(RunAsWritten(argv, fs, env).out) == UncaughtExit
  {
    RootIsTopLevel();
    assert RunAsWritten(argv, fs, env) == Installing(fs, argv[1], env, AsWritten);
    var made := CreateInstallDir(fs, Args.InstallDir);
    assert made.out.Success?;
    assert made.fs == fs[Root(Args.InstallDir) := Dir];
    assert argv[1] !in ManifestBranches;
    assert LibUrls(argv[1]).None?;
    assert Installing(fs, argv[1], env, AsWritten) == Outcome(made.fs, Failure(Crash(IndexOutOfRange)), []);
  }

  /** Corrected, the aliases install the 1.3 development branches. */
  lemma DevAliasInstalls(argv: seq<string>, fs: FileSystem, env: Env)
    requires |argv| >= 2 && (argv[1] == "--dev" || argv[1] == "--develop")
    requires [Args.InstallDir] !in fs
    ensures Named(LibUrls("--dev13").value)
    ensures Run(argv, fs, env).log <= ExpectedLog(LibUrls("--dev13").value)
    ensures Run(argv, fs, env).out.Success? <==> Run(argv, fs, env).log == ExpectedLog(LibUrls("--dev13").value)
  {
    RunFollowsManifest(argv, fs, env, argv[1]);
  }
}

=== FILE: linker.dfy ===
/**
  The Linker. Each library directory is made visible inside the test
  application's directory, by a relative symbolic link when the platform
  allows one and by moving the directory there otherwise.
 */
module Linker {
  import opened Wrappers
  import opened Strings
  import opened Errors
  import opened FileSys
  import opened Archives

  /**
    The three strings the linker derives from its arguments: the directory to
    expose (`source`), where the link goes (`link`), and what the link holds
    (`content`), all relative to the working directory except `content`,
    which is relative to the link's own directory.
   */
  datatype LinkPlan = LinkPlan(source: string, link: string, content: string)

  function Plan(target: string, lnName: string, lnRoot: string): LinkPlan {
    var source := if lnName != "" then target + [Sep] + lnName else target;
    var name := if lnName != "" then lnName else target;
    LinkPlan(source, lnRoot + [Sep] + name, ".." + [Sep] + source)
  }

  /**
    The link goes directly into `lnRoot` and is named like the directory it
    exposes (`lnName`, or `target` when `lnName` is empty); its content
    climbs out of `lnRoot` and names that directory. The prefixes, suffixes
    and lengths together leave nothing in between: the link is exactly
    `lnRoot/name` and the content exactly `../source`.
   */
  lemma PlanNames(target: string, lnName: string, lnRoot: string)
    ensures var plan := Plan(target, lnName, lnRoot);
      var name := if lnName != "" then lnName else target;
      && EndsWith(plan.source, name) && EndsWith(plan.link, [Sep] + name)
      && lnRoot + [Sep] <= plan.link && |plan.link| == |lnRoot| + 1 + |name|
      && ".." + [Sep] <= plan.content && EndsWith(plan.content, plan.source)
      && |plan.content| == 3 + |plan.source|
  {
  }

  /** A path component that names an entry: not empty, `.` or `..`. */
  predicate Ordinary(name: string) {
    name != "" && name != "." && name != ".." && Sep !in name
  }

  /**
    Follow the components of a relative link from directory `dir`: `..`
    climbs to the parent, empty components and `.` stay put, anything else
    descends. Climbing above the starting directory of the model leaves it
    (`None`).
   */
  function Resolve(dir: Path, comps: seq<string>): Option<Path>
    decreases |comps|
  {
    if |comps| == 0 then Some(dir)
    else if comps[0] == ".." then
      if |dir| == 0 then None else Resolve(dir[..|dir| - 1], comps[1..])
    else if comps[0] == "" || comps[0] == "." then Resolve(dir, comps[1..])
    else Resolve(dir + [comps[0]], comps[1..])
  }

  /** Ordinary components are descended into one after another. */
  lemma {:induction false} ResolveNames(dir: Path, comps: seq<string>)
    requires forall i :: 0 <= i < |comps| ==> Ordinary(comps[i])
    ensures Resolve(dir, comps) == Some(dir + comps)
    decreases |comps|
  {
    if |comps| > 0 {
      assert Ordinary(comps[0]);
      assert Resolve(dir, comps) == Resolve(dir + [comps[0]], comps[1..]);
      ResolveNames(dir + [comps[0]], comps[1..]);
      assert dir + [comps[0]] + comps[1..] == dir + comps;
    } else {
      assert dir + comps == dir;
    }
  }

  /**
    The link created for `(target, lnName)` under `lnRoot` is
    `lnRoot/lnName` (or `lnRoot/target` when `lnName` is empty), and read
    from the directory holding it, its content leads to `target/lnName` (or
    `target`) in the working directory. This holds when `lnRoot` is a single
    name, one level below the working directory.
   */
  lemma LinkResolves(cwd: Path, target: string, lnName: string, lnRoot: string)
    requires Ordinary(lnRoot) && Ordinary(target)
    requires lnName == "" || Ordinary(lnName)
    ensures var plan := Plan(target, lnName, lnRoot);
      && At(cwd, plan.link) == cwd + [lnRoot, if lnName != "" then lnName else target]
      && At(cwd, plan.source) == cwd + [target] + (if lnName != "" then [lnName] else [])
      && Resolve(Parent(At(cwd, plan.link)), Split(plan.content, Sep)) == Some(At(cwd, plan.source))
  {
    var plan := Plan(target, lnName, lnRoot);
    var name := if lnName != "" then lnName else target;
    SplitAtFirstSep(lnRoot, name, Sep);
    SplitWithoutSep(name, Sep);
    assert At(cwd, plan.link) == cwd + [lnRoot, name];
    var comps := [target] + (if lnName != "" then [lnName] else []);
    if lnName != "" {
      SplitAtFirstSep(target, lnName, Sep);
      SplitWithoutSep(lnName, Sep);
    } else {
      SplitWithoutSep(target, Sep);
    }
    assert Split(plan.source, Sep) == comps;
    SplitAtFirstSep("..", plan.source, Sep);
    assert Split(plan.content, Sep) == [".."] + comps;
    var parent := cwd + [lnRoot];
    assert Parent(At(cwd, plan.link)) == parent;
    assert parent[..|parent| - 1] == cwd;
    ResolveNames(cwd, comps);
  }

  /** `os.symlink` succeeds: links are supported and the link's place is free. */
  predicate CanLink(fs: FileSystem, p: Path, symlinks: bool) {
    symlinks && p !in fs && ParentIsDir(fs, p)
  }

  /**
    Expose `target/lnName` (or `target`) inside `lnRoot`. Nothing happens for
    the test application itself. Otherwise a symbolic link is tried first;
    if that fails, for whatever reason, the directory is moved to the link's
    place with `shutil.move` (into it, when a directory already stands
    there), and if that fails too the `movedir` error names both paths.
   */
  function Symlink(fs: FileSystem, cwd: Path, target: string, lnName: string, lnRoot: string, symlinks: bool): (e: Effect<()>)
    ensures target == lnRoot ==> e == Effect(fs, Success(()))
    ensures var plan := Plan(target, lnName, lnRoot);
      var src := At(cwd, plan.source);
      var lp := At(cwd, plan.link);
      && (e.out.Success? <==> target == lnRoot || CanLink(fs, lp, symlinks) || ShutilMove(fs, src, lp).Some?)
      && (e.out.Failure? ==> e == Effect(fs, Failure(Fatal(Error.MoveDir(plan.source + " to " + plan.link)))))
      && (target != lnRoot && CanLink(fs, lp, symlinks) ==> e.fs == fs[lp := Link(plan.content)])
      && (target != lnRoot && !CanLink(fs, lp, symlinks) && ShutilMove(fs, src, lp).Some? ==>
            e.fs == ShutilMove(fs, src, lp).value)
  {
    if target == lnRoot then Effect(fs, Success(()))
    else
      var plan := Plan(target, lnName, lnRoot);
      var lp := At(cwd, plan.link);
      if CanLink(fs, lp, symlinks) then Effect(fs[lp := Link(plan.content)], Success(()))
      else
        match ShutilMove(fs, At(cwd, plan.source), lp)
        case Some(moved) => Effect(moved, Success(()))
        case None => Effect(fs, Failure(Fatal(Error.MoveDir(plan.source + " to " + plan.link))))
  }

  /**
    Either way, after a successful call the library is reachable from the
    link's place: a link there leads back to the library, which is left
    where it was, or the library's directory itself was moved, to the
    link's place or, when a directory already stood there, into that
    directory under its own name.
   */
  lemma LinkedLibraryReachable(fs: FileSystem, cwd: Path, target: string, lnName: string, lnRoot: string, symlinks: bool)
    requires Ordinary(lnRoot) && Ordinary(target) && target != lnRoot
    requires lnName == "" || Ordinary(lnName)
    requires Symlink(fs, cwd, target, lnName, lnRoot, symlinks).out.Success?
    ensures var plan := Plan(target, lnName, lnRoot);
      var src := At(cwd, plan.source);
      var lp := At(cwd, plan.link);
      var r := Symlink(fs, cwd, target, lnName, lnRoot, symlinks).fs;
      && lp in r
      && ((&& r[lp] == Link(plan.content)
           && Resolve(Parent(lp), Split(plan.content, Sep)) == Some(src)
           && (src in r <==> src in fs)
           && (src in fs ==> r[src] == fs[src]))
          || (&& src in fs && src !in r
              && var t := MoveTarget(fs, src, lp);
                 && t in r && r[t] == fs[src]
                 && (t == lp || (lp in fs && fs[lp].Dir? && t == lp + [src[|src| - 1]]))))
  {
    var plan := Plan(target, lnName, lnRoot);
    var src := At(cwd, plan.source);
    var lp := At(cwd, plan.link);
    LinkResolves(cwd, target, lnName, lnRoot);
    assert src[|cwd|] == target && lp[|cwd|] == lnRoot;
    if !CanLink(fs, lp, symlinks) {
      ShutilMovePlaced(fs, src, lp);
    }
  }

  /** Linking keeps the filesystem well formed. */
  lemma SymlinkWellFormed(fs: FileSystem, cwd: Path, target: string, lnName: string, lnRoot: string, symlinks: bool)
    requires WellFormed(fs)
    ensures WellFormed(Symlink(fs, cwd, target, lnName, lnRoot, symlinks).fs)
  {
    var plan := Plan(target, lnName, lnRoot);
    var src := At(cwd, plan.source);
    var lp := At(cwd, plan.link);
    if target != lnRoot && CanLink(fs, lp, symlinks) {
      var r := fs[lp := Link(plan.content)];
      forall p | p in r ensures ParentIsDir(r, p) {
        if p != lp {
          assert ParentIsDir(fs, p);
        }
      }
    } else if target != lnRoot && ShutilMove(fs, src, lp).Some? {
      ShutilMoveWellFormed(fs, src, lp);
    }
  }
}

=== FILE: manifest.dfy ===
/**
  The Archive Manifest: for each branch token, the eight (URL, directory)
  pairs to install. Entry 0 is the autoload library, the same for every
  branch; entries 1..7 come from the branch's own URL list. The directory of
  entry i is always the i-th entry of one shared list, in which the test
  application's slot is empty.

  URLs are written as the record of their `/`-separated fields, so that the
  archive name derived from each one (its field 4) can be read off by proof.
 */
module Manifest {
  import opened Wrappers
  import opened Strings
  import opened FileSys
  import opened Archives
  import Args

  /** One library to install: where to get it and its directory inside the archive. */
  datatype LibEntry = LibEntry(url: string, dir: string)

  /** The URL `http://<host>/<owner>/<repo>/<kind>/<ref>`. */
  datatype Remote = Remote(host: string, owner: string, repo: string, kind: string, ref: string) {
    function Fields(): seq<string> {
      ["http:", "", host, owner, repo, kind, ref]
    }
    function Url(): string {
      Join(Fields(), Sep)
    }
    predicate Plain() {
      Sep !in host && Sep !in owner && Sep !in repo && Sep !in kind && Sep !in ref
    }
  }

  /** A tarball of the django-nonrel organisation on GitHub. */
  function GitHub(repo: string, ref: string): Remote {
    Remote("github.com", "django-nonrel", repo, "tarball", ref)
  }

  /** The GitHub tarballs of `repos[i]` at `refs[i]`, in order. */
  function Tarballs(repos: seq<string>, refs: seq<string>): (rs: seq<Remote>)
    requires |repos| == |refs|
    ensures |rs| == |repos|
    ensures forall i :: 0 <= i < |rs| ==> rs[i] == GitHub(repos[i], refs[i])
  {
    seq(|repos|, i requires 0 <= i < |repos| => GitHub(repos[i], refs[i]))
  }

  /** `http://bitbucket.org/twanschik/django-autoload/get/default.tar.gz` */
  const Autoload: Remote := Remote("bitbucket.org", "twanschik", "django-autoload", "get", "default.tar.gz")

  /** The repositories of the master branch's seven libraries. */
  const MasterRepos: seq<string> := ["djangotoolbox", "djangoappengine",
    "django-dbindexer", "django-testapp", "nonrel-search", "django-permission-backend-nonrel", "django-nonrel"]

  /** The repositories of each development branch's seven libraries. */
  const DevRepos: seq<string> := ["djangotoolbox", "djangoappengine",
    "django-dbindexer", "django-testapp", "nonrel-search", "django-permission-backend-nonrel", "django"]

  const MasterRefs: seq<string> := ["toolbox-1.3", "appengine-1.3", "dbindexer-1.3", "testapp-1.3", "master", "master", "master"]
  const Dev13Refs: seq<string> := ["toolbox-1.3", "appengine-1.3", "dbindexer-1.3", "testapp-1.3", "develop", "develop", "nonrel-1.3"]
  const Dev14Refs: seq<string> := ["toolbox-1.4", "appengine-1.4", "dbindexer-1.4", "testapp-1.4", "develop", "develop", "nonrel-1.4"]
  const Dev15Refs: seq<string> := [
    "toolbox-1.5-beta", "appengine-1.5-beta", "dbindexer-1.5-beta", "testapp-1.5-beta", "develop", "develop", "nonrel-1.5-beta"
  ]

  /** The URL lists of the four branches, e.g. `http://github.com/django-nonrel/djangotoolbox/tarball/toolbox-1.3`. */
  const MasterRemotes: seq<Remote> := Tarballs(MasterRepos, MasterRefs)
  const Dev13Remotes: seq<Remote> := Tarballs(DevRepos, Dev13Refs)
  const Dev14Remotes: seq<Remote> := Tarballs(DevRepos, Dev14Refs)
  const Dev15Remotes: seq<Remote> := Tarballs(DevRepos, Dev15Refs)

  /** The directory of each library inside its archive, by position. */
  const LibDirs: seq<string> := [
    "autoload",
    "djangotoolbox",
    "djangoappengine",
    "dbindexer",
    "",
    "search",
    "permission_backend_nonrel",
    "django"
  ]

  /** The branch tokens the manifest has a URL list for. */
  const ManifestBranches: set<string> := {"--master", "--dev13", "--dev14", "--dev15"}

  /** The remotes collected for `branch`: autoload first, then the branch's list, if any. */
  function Remotes(branch: string): seq<Remote> {
    [Autoload] +
      if branch == "--master" then MasterRemotes
      else if branch == "--dev13" then Dev13Remotes
      else if branch == "--dev14" then Dev14Remotes
      else if branch == "--dev15" then Dev15Remotes
      else []
  }

  /**
    The manifest as written: the remotes are paired with the eight entries of
    `LibDirs` by position. A token without a URL list leaves a one-element
    list, and pairing its second position raises `IndexError` (`None`).
   */
  function LibUrls(branch: string): (r: Option<seq<LibEntry>>)
    ensures r.Some? <==> branch in ManifestBranches
    ensures r.Some? ==> |r.value| == 8 && r.value[0] == LibEntry(Autoload.Url(), "autoload")
    ensures r.Some? ==> forall i :: 0 <= i < 8 ==> r.value[i].dir == LibDirs[i]
  {
    var remotes := Remotes(branch);
    if |remotes| < |LibDirs| then None
    else Some(seq(|LibDirs|, i requires 0 <= i < |LibDirs| => LibEntry(remotes[i].Url(), LibDirs[i])))
  }

  /**
    The manifest as evidently intended: `--dev` and `--develop` are announced
    as the 1.3 development branches, so they get the `--dev13` list.
   */
  function IntendedLibUrls(branch: string): (r: Option<seq<LibEntry>>)
    ensures r.Some? <==> branch in ManifestBranches + {"--dev", "--develop"}
    ensures branch in ManifestBranches ==> r == LibUrls(branch)
    ensures branch in {"--dev", "--develop"} ==> r == LibUrls("--dev13")
  {
    LibUrls(if branch == "--dev" || branch == "--develop" then "--dev13" else branch)
  }

  /** Every remote of a branch, and its position in the manifest. */
  lemma RemotesOf(branch: string)
    requires branch in ManifestBranches
    ensures |Remotes(branch)| == 8
    ensures LibUrls(branch).Some?
    ensures forall i :: 0 <= i < 8 ==> LibUrls(branch).value[i].url == Remotes(branch)[i].Url()
    ensures forall i :: 0 <= i < 8 ==> LibUrls(branch).value[i].dir == LibDirs[i]
  {
  }

  /** Only the test application's slot (entry 4) has an empty directory. */
  lemma OnlyTestappDirEmpty()
    ensures |LibDirs| == 8
    ensures forall i :: 0 <= i < 8 ==> (LibDirs[i] == "" <==> i == 4)
  {
  }

  /** A URL built from separator-free fields splits back into those fields. */
  lemma RemoteFields(r: Remote)
    requires r.Plain()
    ensures Split(r.Url(), Sep) == r.Fields()
    ensures ArchiveName(r.Url()) == Some(r.repo + TarGz)
  {
    SplitJoin(r.Fields(), Sep);
  }

  /** No two of the strings are equal. */
  predicate Distinct(xs: seq<string>) {
    forall i, j :: 0 <= i < j < |xs| ==> xs[i] != xs[j]
  }

  /** No string of the list holds the separator. */
  predicate NoSep(xs: seq<string>) {
    forall i :: 0 <= i < |xs| ==> Sep !in xs[i]
  }

  /** The repository names (URL field 4) of a list of remotes. */
  function Repos(rs: seq<Remote>): (names: seq<string>)
    ensures |names| == |rs|
    ensures forall i :: 0 <= i < |rs| ==> names[i] == rs[i].repo
  {
    seq(|rs|, i requires 0 <= i < |rs| => rs[i].repo)
  }

  /** Every remote is plain, and their repository names are pairwise distinct. */
  predicate WellNamed(rs: seq<Remote>) {
    (forall i :: 0 <= i < |rs| ==> rs[i].Plain()) && Distinct(Repos(rs))
  }

  /** The literal tables hold no separator and repeat no repository. */
  lemma ReposPlain()
    ensures NoSep(MasterRepos) && NoSep(DevRepos) && Autoload.Plain()
  {
    MasterReposPlain();
    DevReposPlain();
  }

  lemma MasterReposPlain()
    ensures NoSep(MasterRepos)
  {
  }

  lemma DevReposPlain()
    ensures NoSep(DevRepos)
  {
  }

  lemma RefsPlain()
    ensures NoSep(MasterRefs) && NoSep(Dev13Refs)
    ensures NoSep(Dev14Refs) && NoSep(Dev15Refs)
  {
  }

  lemma ReposDistinct()
    ensures Distinct([Autoload.repo] + MasterRepos) && Distinct([Autoload.repo] + DevRepos)
  {
    assert [Autoload.repo] + MasterRepos == ["django-autoload", "djangotoolbox", "djangoappengine",
      "django-dbindexer", "django-testapp", "nonrel-search", "django-permission-backend-nonrel", "django-nonrel"];
    assert [Autoload.repo] + DevRepos == ["django-autoload", "djangotoolbox", "djangoappengine",
      "django-dbindexer", "django-testapp", "nonrel-search", "django-permission-backend-nonrel", "django"];
  }

  /** The autoload remote followed by a branch's tarballs is well named. */
  lemma WellNamedAfterAutoload(repos: seq<string>, refs: seq<string>)
    requires |repos| == |refs|
    requires NoSep(repos) && NoSep(refs) && Autoload.Plain()
    requires Distinct([Autoload.repo] + repos)
    ensures WellNamed([Autoload] + Tarballs(repos, refs))
  {
    var rs := Tarballs(repos, refs);
    var all := [Autoload] + rs;
    forall i | 0 <= i < |all|
      ensures all[i].Plain() && Repos(all)[i] == ([Autoload.repo] + repos)[i]
    {
      if i > 0 {
        assert all[i] == rs[i - 1] == GitHub(repos[i - 1], refs[i - 1]);
      }
    }
    assert Repos(all) == [Autoload.repo] + repos;
  }

  /** The repositories of a branch's remotes: autoload's, then the branch table's. */
  lemma BranchRepos(branch: string)
    requires branch in ManifestBranches
    ensures Repos(Remotes(branch)) == [Autoload.repo] + (if branch == "--master" then MasterRepos else DevRepos)
  {
    var repos := if branch == "--master" then MasterRepos else DevRepos;
    var rs := Remotes(branch);
    forall i | 0 <= i < |rs| ensures Repos(rs)[i] == ([Autoload.repo] + repos)[i] {
      if i > 0 {
        assert rs[i].repo == repos[i - 1];
      }
    }
  }

  lemma BranchWellNamed(branch: string)
    requires branch in ManifestBranches
    ensures WellNamed(Remotes(branch))
  {
    ReposPlain();
    RefsPlain();
    ReposDistinct();
    if branch == "--master" {
      WellNamedAfterAutoload(MasterRepos, MasterRefs);
    } else if branch == "--dev13" {
      WellNamedAfterAutoload(DevRepos, Dev13Refs);
    } else if branch == "--dev14" {
      WellNamedAfterAutoload(DevRepos, Dev14Refs);
    } else {
      WellNamedAfterAutoload(DevRepos, Dev15Refs);
    }
  }

  /**
    For every branch of the manifest, entry i is downloaded to
    `<repo>.tar.gz`, where `<repo>` is field 4 of its URL, and no two entries
    share a file name.
   */
  lemma ManifestArchiveNames(branch: string)
    requires branch in ManifestBranches
    ensures forall i :: 0 <= i < 8 ==> ArchiveName(LibUrls(branch).value[i].url) == Some(Remotes(branch)[i].repo + TarGz)
    ensures forall i, j :: 0 <= i < j < 8 ==> ArchiveName(LibUrls(branch).value[i].url) != ArchiveName(LibUrls(branch).value[j].url)
  {
    RemotesOf(branch);
    BranchWellNamed(branch);
    var rs := Remotes(branch);
    forall i | 0 <= i < 8
      ensures ArchiveName(LibUrls(branch).value[i].url) == Some(rs[i].repo + TarGz)
    {
      RemoteFields(rs[i]);
    }
    forall i, j | 0 <= i < j < 8
      ensures rs[i].repo + TarGz != rs[j].repo + TarGz
    {
      assert Repos(rs)[i] != Repos(rs)[j];
      DropLastAppended(rs[i].repo, TarGz);
      DropLastAppended(rs[j].repo, TarGz);
    }
  }

}

=== FILE: resolver.dfy ===
/**
  The Directory Resolver. An extracted archive directory is found by the
  first name in the listing of the working directory that contains
  `-<key>-`, and renamed to `key`.
 */
module Resolver {
  import opened Wrappers
  import opened Strings
  import opened Errors
  import opened FileSys
  import opened Archives

  /** The infix that marks the directory extracted for `key`. */
  function Infix(key: string): string {
    "-" + key + "-"
  }

  /** No name of `names` holds the infix of any key of `keys`. */
  predicate InfixFree(names: seq<string>, keys: seq<string>) {
    forall i, j :: 0 <= i < |names| && 0 <= j < |keys| ==> !Contains(names[i], Infix(keys[j]))
  }

  /** The position of the first name containing `infix`, if any. */
  function FirstMatch(listing: seq<string>, infix: string): (r: Option<nat>)
    ensures r.Some? ==> r.value < |listing| && Contains(listing[r.value], infix)
    ensures r.Some? ==> forall j :: 0 <= j < r.value ==> !Contains(listing[j], infix)
    ensures r.None? <==> forall j :: 0 <= j < |listing| ==> !Contains(listing[j], infix)
  {
    if |listing| == 0 then None
    else if Contains(listing[0], infix) then Some(0)
    else
      match FirstMatch(listing[1..], infix)
      case None => None
      case Some(k) => Some(k + 1)
  }

  /**
    `listing` is what listing `cwd` returns: the names of exactly the entries
    directly inside `cwd`, in some order.
   */
  predicate IsListing(fs: FileSystem, cwd: Path, listing: seq<string>) {
    && (forall i :: 0 <= i < |listing| ==> Sep !in listing[i] && cwd + [listing[i]] in fs)
    && (forall p :: p in fs && |p| == |cwd| + 1 && p[..|cwd|] == cwd ==> p[|cwd|] in listing)
  }

  /**
    Rename the first listed entry whose name contains `-<key>-` to `key`.
    Whether `key` already exists is asked only once a match is found, so
    `shutil.move` is only ever asked to rename onto a free name.
   */
  function MoveDir(fs: FileSystem, cwd: Path, listing: seq<string>, key: string): (e: Effect<()>)
    ensures FirstMatch(listing, Infix(key)).None? ==> e == Effect(fs, Failure(Fatal(NotFound(key))))
    ensures FirstMatch(listing, Infix(key)).Some? && At(cwd, key) in fs ==>
      e == Effect(fs, Failure(Fatal(PathExists(key))))
    ensures e.out.Failure? ==> e.fs == fs && e.out.error.Fatal?
    ensures e.out == Failure(Fatal(NotFound(key))) <==> FirstMatch(listing, Infix(key)).None?
    ensures e.out.Failure? ==> e.out.error.error == NotFound(key) || e.out.error.error == PathExists(key) || e.out.error.error.MoveDir?
  {
    match FirstMatch(listing, Infix(key))
    case None => Effect(fs, Failure(Fatal(NotFound(key))))
    case Some(i) =>
      var dst := At(cwd, key);
      if dst in fs then Effect(fs, Failure(Fatal(PathExists(key))))
      else
        match ShutilMove(fs, At(cwd, listing[i]), dst)
        case None => Effect(fs, Failure(Fatal(Error.MoveDir(listing[i] + " to " + key))))
        case Some(moved) => Effect(moved, Success(()))
  }

  /**
    The rename succeeds exactly when a match is found, `key` is free and the
    matching entry can be moved there; it then moves that entry.
   */
  lemma MoveDirMoves(fs: FileSystem, cwd: Path, listing: seq<string>, key: string)
    ensures var e := MoveDir(fs, cwd, listing, key);
      var i := FirstMatch(listing, Infix(key));
      && (e.out.Success? <==>
           i.Some? && At(cwd, key) !in fs && CanMove(fs, At(cwd, listing[i.value]), At(cwd, key)))
      && (e.out.Success? ==> e.fs == Move(fs, At(cwd, listing[i.value]), At(cwd, key)).value)
  {
  }

  /**
    With a true listing, `notfound` is reported exactly when no entry of the
    working directory has the infix in its name, whether or not `key`
    exists, and the filesystem is left alone.
   */
  lemma NotFoundIffNoMatch(fs: FileSystem, cwd: Path, listing: seq<string>, key: string)
    requires IsListing(fs, cwd, listing)
    ensures MoveDir(fs, cwd, listing, key).out == Failure(Fatal(NotFound(key))) <==>
      forall n :: cwd + [n] in fs ==> !Contains(n, Infix(key))
    ensures MoveDir(fs, cwd, listing, key).out == Failure(Fatal(NotFound(key))) ==>
      MoveDir(fs, cwd, listing, key).fs == fs
  {
    var infix := Infix(key);
    if forall n :: cwd + [n] in fs ==> !Contains(n, infix) {
      forall j | 0 <= j < |listing| ensures !Contains(listing[j], infix) {
        assert cwd + [listing[j]] in fs;
      }
    } else {
      var n :| cwd + [n] in fs && Contains(n, infix);
      var p := cwd + [n];
      assert p[..|cwd|] == cwd && p[|cwd|] == n;
      var j :| 0 <= j < |listing| && listing[j] == n;
      assert Contains(listing[j], infix);
    }
  }

  /**
    With a true listing, `pathexists` is reported exactly when some entry
    has the infix and `key` already exists; nothing is renamed.
   */
  lemma PathExistsIffTaken(fs: FileSystem, cwd: Path, listing: seq<string>, key: string)
    requires IsListing(fs, cwd, listing)
    ensures MoveDir(fs, cwd, listing, key).out == Failure(Fatal(PathExists(key))) <==>
      (exists n :: cwd + [n] in fs && Contains(n, Infix(key))) && At(cwd, key) in fs
    ensures MoveDir(fs, cwd, listing, key).out == Failure(Fatal(PathExists(key))) ==>
      MoveDir(fs, cwd, listing, key).fs == fs
  {
    NotFoundIffNoMatch(fs, cwd, listing, key);
  }

  /**
    A successful rename takes the first matching entry: that entry is gone,
    `key` holds what it held, and every entry outside the two subtrees is
    unchanged.
   */
  lemma MoveDirSuccess(fs: FileSystem, cwd: Path, listing: seq<string>, key: string)
    requires IsListing(fs, cwd, listing)
    requires MoveDir(fs, cwd, listing, key).out.Success?
    ensures var i := FirstMatch(listing, Infix(key)).value;
      var src := cwd + [listing[i]];
      var r := MoveDir(fs, cwd, listing, key).fs;
      && Contains(listing[i], Infix(key))
      && (forall j :: 0 <= j < i ==> !Contains(listing[j], Infix(key)))
      && src !in r
      && At(cwd, key) in r && r[At(cwd, key)] == fs[src]
      && (forall q :: q in fs && !Under(q, src) ==> q in r && r[q] == fs[q])
      && (forall q :: q in r && !Under(q, At(cwd, key)) ==> q in fs && r[q] == fs[q])
  {
    var i := FirstMatch(listing, Infix(key)).value;
    var src := cwd + [listing[i]];
    var dst := At(cwd, key);
    MoveDirMoves(fs, cwd, listing, key);
    AtPlainName(cwd, listing[i]);
    assert CanMove(fs, src, dst) && MoveDir(fs, cwd, listing, key).fs == Move(fs, src, dst).value;
    MovePlaced(fs, src, dst);
    MoveOutside(fs, src, dst);
  }

  /**
    Inside a directory of a well-formed filesystem, with a true listing and a
    key without a separator, `movedir` is never reported: the rename
    succeeds exactly when some entry has the infix and `key` is free.
   */
  lemma MoveDirNeverFailsToMove(fs: FileSystem, cwd: Path, listing: seq<string>, key: string)
    requires WellFormed(fs) && IsListing(fs, cwd, listing) && Sep !in key
    requires cwd == [] || (cwd in fs && fs[cwd].Dir?)
    ensures var e := MoveDir(fs, cwd, listing, key);
      && (e.out.Success? <==> FirstMatch(listing, Infix(key)).Some? && cwd + [key] !in fs)
      && (e.out.Failure? ==> !e.out.error.error.MoveDir?)
  {
    var dst := cwd + [key];
    AtPlainName(cwd, key);
    MoveDirMoves(fs, cwd, listing, key);
    var m := FirstMatch(listing, Infix(key));
    if m.Some? && dst !in fs {
      var src := cwd + [listing[m.value]];
      AtPlainName(cwd, listing[m.value]);
      VacantIffAbsent(fs, dst);
      assert Parent(dst) == cwd;
      assert src in fs && !Under(dst, src);
      assert CanMove(fs, src, dst);
    }
  }

  /** A successful rename for `key` puts the renamed entry at `key`. */
  lemma MoveDirPlacesKey(fs: FileSystem, cwd: Path, listing: seq<string>, key: string)
    requires MoveDir(fs, cwd, listing, key).out.Success?
    ensures At(cwd, key) !in fs && At(cwd, key) in MoveDir(fs, cwd, listing, key).fs
  {
    var i := FirstMatch(listing, Infix(key)).value;
    MoveDirMoves(fs, cwd, listing, key);
    MovePlaced(fs, At(cwd, listing[i]), At(cwd, key));
  }

  /**
    A successful rename for `key` leaves alone every entry of the working
    directory whose name does not hold the key's infix: only the matching
    entry, and what lies below it, is taken away.
   */
  lemma MoveDirKeeps(fs: FileSystem, cwd: Path, listing: seq<string>, key: string, other: string)
    requires MoveDir(fs, cwd, listing, key).out.Success?
    requires cwd + [other] in fs && !Contains(other, Infix(key))
    ensures var r := MoveDir(fs, cwd, listing, key).fs;
      cwd + [other] in r && r[cwd + [other]] == fs[cwd + [other]]
  {
    var i := FirstMatch(listing, Infix(key)).value;
    MoveDirMoves(fs, cwd, listing, key);
    UnderOnlyItself(cwd, listing[i], other);
    MoveOutside(fs, At(cwd, listing[i]), At(cwd, key));
  }
}

=== FILE: strings.dfy ===
/**
  The string operations the installer relies on, with Python's semantics:
  `str.split` on one character, `'/'.join`, `sub in s` (`find != -1`),
  `str.endswith` and the negative-stop slice `s[:-n]`.
 */
module Strings {

  /** The path separator (`os.sep` on a POSIX system). */
  const Sep: char := '/'

  /** Python's `sep.join(fields)`: the fields with one separator between each pair. */
  function Join(fields: seq<string>, sep: char): string
    requires |fields| >= 1
  {
    if |fields| == 1 then fields[0] else fields[0] + [sep] + Join(fields[1..], sep)
  }

  /**
    Python's `s.split(sep)`: the maximal separator-free pieces of `s`, in order.
    There is always one more piece than there are separators, so even the empty
    string splits into one (empty) field.
   */
  function Split(s: string, sep: char): (r: seq<string>)
    ensures |r| >= 1
    ensures forall i :: 0 <= i < |r| ==> sep !in r[i]
    ensures Join(r, sep) == s
  {
    if |s| == 0 then [""]
    else
      var rest := Split(s[1..], sep);
      if s[0] == sep then
        assert Join([""] + rest, sep) == [sep] + Join(rest, sep) by {
          assert ([""] + rest)[1..] == rest;
        }
        assert s == [s[0]] + s[1..];
        [""] + rest
      else
        var r := [[s[0]] + rest[0]] + rest[1..];
        assert Join(r, sep) == [s[0]] + Join(rest, sep) by {
          if |rest| > 1 {
            assert r[1..] == rest[1..];
          }
        }
        assert s == [s[0]] + s[1..];
        r
  }

  /** A string without a separator is a single field. */
  lemma {:induction false} SplitWithoutSep(s: string, sep: char)
    requires sep !in s
    ensures Split(s, sep) == [s]
  {
    if |s| > 0 {
      assert sep !in s[1..] by {
        forall c | c in s[1..] ensures c != sep {
          var k :| 0 <= k < |s[1..]| && s[1..][k] == c;
          assert s[k + 1] == c;
        }
      }
      SplitWithoutSep(s[1..], sep);
    }
  }

  /** Splitting at the first separator peels off exactly the first field. */
  lemma {:induction false} SplitAtFirstSep(a: string, b: string, sep: char)
    requires sep !in a
    ensures Split(a + [sep] + b, sep) == [a] + Split(b, sep)
  {
    var s := a + [sep] + b;
    if |a| == 0 {
      assert s[0] == sep;
      assert s[1..] == b;
    } else {
      assert s[1..] == a[1..] + [sep] + b;
      assert sep !in a[1..] by {
        forall c | c in a[1..] ensures c != sep {
          var k :| 0 <= k < |a[1..]| && a[1..][k] == c;
          assert a[k + 1] == c;
        }
      }
      SplitAtFirstSep(a[1..], b, sep);
      assert s[0] == a[0] != sep;
      assert [a[0]] + a[1..] == a;
    }
  }

  /** `Split` inverts `Join` whenever no field holds the separator. */
  lemma {:induction false} SplitJoin(fields: seq<string>, sep: char)
    requires |fields| >= 1
    requires forall i :: 0 <= i < |fields| ==> sep !in fields[i]
    ensures Split(Join(fields, sep), sep) == fields
  {
    if |fields| == 1 {
      SplitWithoutSep(fields[0], sep);
    } else {
      SplitJoin(fields[1..], sep);
      SplitAtFirstSep(fields[0], Join(fields[1..], sep), sep);
      assert [fields[0]] + fields[1..] == fields;
    }
  }

  /** `sub` occurs in `s` starting at index `i`. */
  predicate OccursAt(s: string, sub: string, i: int) {
    0 <= i && i + |sub| <= |s| && s[i..i + |sub|] == sub
  }

  /** Python's `sub in s`, equivalently `s.find(sub) != -1`. */
  predicate Contains(s: string, sub: string) {
    exists i | 0 <= i <= |s| - |sub| :: OccursAt(s, sub, i)
  }

  /**
    `sub` does not occur in `s` if, at every place `k` where character `j`
    of `sub` would land, the two characters of `s` there differ from
    characters `j` and `j + 1` of `sub`.
   */
  lemma PairAbsent(s: string, sub: string, j: nat)
    requires j + 1 < |sub|
    requires forall k :: j <= k <= |s| - |sub| + j ==> s[k] != sub[j] || s[k + 1] != sub[j + 1]
    ensures !Contains(s, sub)
  {
    forall i | 0 <= i <= |s| - |sub| ensures !OccursAt(s, sub, i) {
      var w := s[i..i + |sub|];
      assert w[j] == s[i + j] && w[j + 1] == s[i + j + 1];
    }
  }

  /** Python's `s.endswith(suffix)`. */
  predicate EndsWith(s: string, suffix: string) {
    |suffix| <= |s| && s[|s| - |suffix|..] == suffix
  }

  /**
    Python's slice `s[:-n]`. The stop index `-n` counts from the end and is
    clamped at 0, so a string shorter than `n` becomes empty; `s[:-0]` is
    `s[:0]`, also empty.
   */
  function DropLast(s: string, n: nat): (r: string)
    ensures r <= s
    ensures |r| == (if 1 <= n <= |s| then |s| - n else 0)
  {
    if n == 0 || n > |s| then "" else s[..|s| - n]
  }

  /** Dropping a non-empty suffix by its length gives back what preceded it. */
  lemma DropLastAppended(x: string, suffix: string)
    requires |suffix| >= 1
    ensures DropLast(x + suffix, |suffix|) == x
    ensures EndsWith(x + suffix, suffix)
  {
    assert (x + suffix)[..|x|] == x;
    assert (x + suffix)[|x|..] == suffix;
  }
}

=== FILE: wrappers.dfy ===
/** Failure-carrying value types shared by every module of the installer model. */
module Wrappers {

  /** A value that may be absent. */
  datatype Option<+T> = None | Some(value: T)

  /** Either a successful value or an error value. */
  datatype Result<+T, +E> = Success(value: T) | Failure(error: E)
}
